=== FILE: README.md ===
# Claim agent: routing and fallback extraction in Dafny

This project models the two deterministic parts of the claim agent.

The first is the rule-based router (`claims_router.py`). It finds which of the seven mandatory fields of a first-notice-of-loss claim are missing, and picks a route with a five-rule cascade:

- a fraud keyword in the description gives "Investigation Flag";
- any missing field gives "Manual review";
- an injury claim gives "Specialist Queue";
- damage below 25,000 gives "Fast-track";
- anything else gives the default "Manual review".

The router then assembles the four-member result.

The second is the regular-expression fallback extractor (`llm_extractor.py`). It fills the seven fields from the document text. One fixed pattern per field finds the capture. The capture is stripped, its whitespace collapsed, and the description capped at 500 characters. The amount is read with its thousands separators removed. The claim type comes from a four-way priority classifier over the upper-cased text.

Modules:

- `Options`: the nullable value.
- `Text`: Python's whitespace set, ASCII case mapping, `strip()`, the `\s+` → `' '` collapse, and `", ".join`.
- `Numbers`: reading digits back, and `format(n, ',')` with its parse round trip.
- `Schema`: the seven fields, `MANDATORY_FIELDS`, and Python truthiness of a field.
- `Router`: `find_missing_fields`, `determine_route` and `process_claim`.
- `Patterns`: one hand-written matcher per regular expression. Each matcher gives the bounds of capture group 1 when the pattern is tried at one start index, plus `re.search`'s leftmost-first scan. The comments say why each matcher follows the path Python's backtracking engine settles on first.
- `Extractor`: `extract_regex`'s clean-up, `extract_description`, `extract_amount`, `determine_claim_type` and `fallback_extraction`.
- `Pipeline`: what the router makes of the fallback's output, and routing scenarios.

## Model

| member | source | states |
|---|---|---|
| `Schema.Index` | claims_router.py:7-15 | every field has one position in `MANDATORY_FIELDS`, and the list holds that field there |
| `Schema.MandatoryFieldsDistinct` | claims_router.py:7-15 | the mandatory list names each field once; positions and fields correspond one to one |
| `Router.MissingFrom` | claims_router.py:29-31 | from position k on, a field is collected iff it is at or after k and missing; the result is in schema order |
| `Router.FindMissingFields` | claims_router.py:28-32 | a field is listed iff it is absent or falsy (`""` and `0` count); the list is in schema order with no repeats; it is empty iff every field is truthy |
| `Router.DetermineRoute` | claims_router.py:46-66 | each route holds iff its rule is the first to fire; fraud beats missing fields; the fraud reasoning is the prefix followed by the lower-cased description cut to its first 100 characters (its length is exactly the prefix's plus min(length, 100)); the missing-fields reasoning joins the names in list order; the reasoning is never empty |
| `Router.ProcessClaim` | claims_router.py:79-87 | the fields come back unchanged; the missing list is `find_missing_fields`'s; each route is characterised by fraud, completeness, injury and damage; the default reasoning appears iff the claim is complete, no fraud, not injury, and damage ≥ 25,000 |
| `Router.ReasoningNamesRoute` | claims_router.py:50-66 | the route can be read back from the reasoning's opening words, so no two rules' reasoning texts are confused |
| `Router.MissingReasoningDetermined` | claims_router.py:54 | the "Missing mandatory fields" reasoning determines the missing list: equal reasoning means equal lists |
| `Router.FastTrackQuotesAmount` | claims_router.py:61-63 | a fast-track decision means the damage is present and below 25,000. Its reasoning quotes the damage in `{:,}` form: a minus sign for a negative damage, then a numeral grouped in threes by commas (one to three leading digits, no leading zero unless the numeral is `0`, then whole `,ddd` groups) that reads back as the damage's magnitude |
| `Numbers.Decimal` | claims_router.py:63 | `str(n)` is non-empty digits with no leading zero, and reads back as n |
| `Numbers.FormatThousands` | claims_router.py:63 | `format(n, ',')` starts with a digit and holds only digits and commas |
| `Numbers.FormatThousandsShape` | claims_router.py:63 | `format(n, ',')` is one to three leading digits, with no leading zero unless the numeral is a single digit, followed by whole `,ddd` groups; together with the round trip this fixes the numeral exactly |
| `Numbers.ParseFormatRoundTrip` | claims_router.py:63 | removing the commas from `format(n, ',')` and reading the digits gives n back |
| `Numbers.FormatInt` | claims_router.py:63 | `format(n, ',')` of any integer is non-empty and starts with a minus sign iff n is negative |
| `Numbers.FormatIntReadsBack` | claims_router.py:63 | `format(n, ',')` of any integer is an optional minus sign, present iff n is negative, then the magnitude's numeral, which has the `,ddd` grouping and reads back as the magnitude |
| `Text.Strip` | llm_extractor.py:120 | `strip()` leaves no whitespace at either end, keeps every other character, is empty iff the input is all whitespace, and is a substring of the input |
| `Text.Collapse` | llm_extractor.py:121 | the collapse leaves single plain spaces only, keeps every other character in order, and is empty iff its input is |
| `Text.CollapseBlankRun` | llm_extractor.py:121 | a whitespace run of any length and kind between two parts (the first not ending, the second not starting, with whitespace) becomes exactly one space, and each part collapses on its own |
| `Text.CollapseSingleSpaced` | llm_extractor.py:121 | text already single-spaced is left unchanged by the collapse |
| `Extractor.Tidy` | llm_extractor.py:120-122 | the clean-up result is None iff the capture is all whitespace; otherwise it is non-empty, trimmed and single-spaced, with the capture's other characters unchanged |
| `Extractor.TidyIdempotent` | llm_extractor.py:120-122 | cleaning a cleaned value changes nothing |
| `Extractor.TidyJoinsWords` | llm_extractor.py:120-122 | two clean phrases separated by any whitespace run come out joined by one plain space |
| `Extractor.TidyOfSpaceFree` | llm_extractor.py:120-122 | a capture without whitespace is returned as captured |
| `Extractor.TidyCapped` | llm_extractor.py:134-138 | the description clean-up is the ordinary clean-up cut to 500 characters; it is single-spaced, starts with no blank, and is None exactly when the ordinary clean-up is |
| `Extractor.ExtractPolicyNumber` | llm_extractor.py:97 | a policy number, when found, is non-empty and clean, and the text has the label |
| `Extractor.ExtractPolicyholderName` | llm_extractor.py:98 | a name, when found, is non-empty and clean, and the text has the label |
| `Extractor.ExtractIncidentDate` | llm_extractor.py:101 | a date, when found, is exactly `dd/dd/dddd`; it is the text's ten characters at a date that is the first on the line its label opens |
| `Extractor.DateAfterLabel` | llm_extractor.py:101 | the label followed, on the same line and with no digit in between, by a `dd/dd/dddd` date gives exactly that date, whatever precedes the label where no date match starts and whatever follows the date |
| `Extractor.DateExample` | llm_extractor.py:101 | `DATE OF LOSS: 01/15/2024` gives `01/15/2024` |
| `Extractor.DateCapture` | llm_extractor.py:101 | a captured date survives the clean-up unchanged |
| `Extractor.ExtractIncidentLocation` | llm_extractor.py:102 | a location, when found, is non-empty and clean, and the text has the `CITY,` label |
| `Extractor.ExtractDescription` | llm_extractor.py:126-139 | a description, when found, is non-empty, at most 500 characters and single-spaced, and the text has the label |
| `Extractor.ExtractDescriptionAtFirstLabel` | llm_extractor.py:128-139 | the description is the capture at the first description label, cleaned and capped; there is one exactly when that capture holds a non-blank character |
| `Extractor.DescriptionStopsAtSection` | llm_extractor.py:128-132 | the description is exactly the text between the first description label and a following `WITNESSES` section label, cleaned and capped, whatever comes before the label |
| `Extractor.ExtractAmount` | llm_extractor.py:142-148 | an amount is non-negative; there is one iff the pattern matches somewhere; there is none without the exact-case label |
| `Extractor.AmountSpan` | llm_extractor.py:144 | at any index holding `ESTIMATE AMOUNT: $`, the pattern matches and its capture is the whole grouped numeral that follows, starting right after the `$` |
| `Extractor.ExtractAmountAtFirst` | llm_extractor.py:144-147 | the amount is the numeral captured at the first matching index, read with its commas removed |
| `Extractor.AmountRoundTrip` | llm_extractor.py:144-147 | `ESTIMATE AMOUNT: $` followed by `format(n, ',')` reads back as n, whatever precedes the label where no amount match starts and whatever follows that does not continue the numeral |
| `Extractor.AmountExample` | llm_extractor.py:142-148 | `ESTIMATE AMOUNT: $45,000` gives 45000 |
| `Extractor.AmountLabelCaseSensitive` | llm_extractor.py:144 | a lower-cased text never yields an amount: the label match is case-sensitive |
| `Extractor.ClaimTypeIgnoresCase` | llm_extractor.py:153 | lower- or upper-casing the text does not change its claim type |
| `Extractor.FoldedLabelUpper` | llm_extractor.py:153 | a case-insensitive match of an upper-case phrase is an exact match in the upper-cased text |
| `Extractor.ExtentOfInjuryWins` | llm_extractor.py:156-161 | `EXTENT OF INJURY` anywhere, in any case, makes the claim an injury, whatever theft or fire words it also has |
| `Extractor.StolenCarFireIsTheft` | llm_extractor.py:160-167 | theft outranks fire: `STOLEN CAR FIRE` is a theft |
| `Extractor.FireDepartmentIsNotFire` | llm_extractor.py:166-169 | `FIRE DEPARTMENT` alone is not a fire; it falls through to non-injury |
| `Extractor.DetermineClaimType` | llm_extractor.py:151-169 | an injury result means the text holds `INJUR` or `EXTENT OF INJURY`, in any case; a theft result means it holds `THEFT` or `STOLEN`; a fire result means it holds `FIRE` |
| `Extractor.UpperLabelFolded` | llm_extractor.py:153 | an exact match in the upper-cased text is a case-insensitive match in the original text |
| `Extractor.InjuryOutranks` | llm_extractor.py:156-161 | any text where one of the injury alternatives matches at some index in the upper-cased text is an injury, whatever theft or fire words it also has |
| `Extractor.TheftOutranksFire` | llm_extractor.py:160-164 | any text with no injury match and a theft match at some index is a theft, whatever fire words it also has |
| `Extractor.FireOutranksNonInjury` | llm_extractor.py:160-167 | any text with no injury or theft match and a fire match at some index is a fire |
| `Extractor.HouseFireIsFire` | llm_extractor.py:166-167 | `house fire` is a fire |
| `Extractor.FallbackExtraction` | llm_extractor.py:94-113 | the claim type is always one of the four names and never missing; the policy number, name and location, when found, are non-empty and clean; the date has the date shape; the description is non-empty and at most 500 characters (it is not promised clean: the 500 cut can leave a blank at its end); the amount is non-negative |
| `Patterns.Search` | llm_extractor.py:118 | a match is the one at the first start index where the pattern matches; no match means none at any index |
| `Patterns.PolicyNumberAt` | llm_extractor.py:97 | a match sits after the label, case-insensitively, with only blanks and at most one `:` or `-` in between. It captures a non-empty greedy run of word characters and hyphens: the character after it is not one of them |
| `Patterns.NameAt` | llm_extractor.py:98 | a match sits after the label. In between come blanks, a `(`, at least one character that is not `)`, the first `)`, then blanks with at most one `:` or `-`. The capture is at least two letters or spaces, the first a letter, and ends where the lazy group may stop: two blanks, a newline or the end of text |
| `Patterns.NameAfterParen` | llm_extractor.py:98 | after the `)`, a name capture starts past blanks and at most one separator, with the shape `NameAt` states |
| `Patterns.DateAt` | llm_extractor.py:101 | a match sits after the label and captures ten characters of `dd/dd/dddd` shape, the first such date on the label's line |
| `Patterns.LocationAt` | llm_extractor.py:102 | a match sits after `CITY,`. In between come blanks, `STATE`, optionally a `,` with blanks and `ZIP`, then blanks with at most one `:` or `-`. The capture is a non-empty run of letters, whitespace and commas, ending where one of the pattern's stop alternatives holds |
| `Patterns.PlaceAfterState` | llm_extractor.py:102 | after `STATE`, the optional `,\s*ZIP` part and the separator gap come before the place, with the shape `LocationAt` states |
| `Patterns.InjuryAt` | llm_extractor.py:157 | the injury pattern can only match where `INJUR` or `EXTENT OF INJURY` starts |
| `Patterns.TheftAt` | llm_extractor.py:163 | the theft pattern can only match where `THEFT` or `STOLEN` starts, and never right after a letter |
| `Patterns.FireAt` | llm_extractor.py:166 | the fire pattern can only match where `FIRE` starts, never right after a letter, and never where `FIRE DEPARTMENT` starts |
| `Patterns.DescriptionAt` | llm_extractor.py:128-132 | the description pattern matches at an index iff its label is there, case-insensitively |
| `Patterns.DescriptionEnd` | llm_extractor.py:129 | the lazy group stops at the first section label or end of text, and at none before |
| `Patterns.AmountAt` | llm_extractor.py:144 | a match sits after the exact-case label, with only blanks, at most one `:` or `-`, and an optional `$` in between. It captures a numeral that starts with a digit and holds only digits and commas |
| `Patterns.GroupsEnd` | llm_extractor.py:144 | the greedy `(?:,\d{3})*` consumes whole groups and stops where no further group follows |
| `Patterns.InjuredNamedExact` | llm_extractor.py:157 | the `INJURED\s*[:\-]?\s*(?!NONE)[A-Z]` matcher holds iff some backtracking path of the pattern succeeds |
| `Pipeline.FallbackMissingFields` | llm_extractor.py:94-113 | on the fallback's output a field is reported missing iff the extractor found nothing for it (an amount of 0 included), and the claim type never is |
| `Pipeline.NoDescriptionGoesToManualReview` | claims_router.py:46-54 | a document without a description label is routed to manual review with the description listed missing |
| `Pipeline.FraudKeywordInvestigated` | claims_router.py:46-50 | a fraud keyword, in any case, anywhere in the description gives "Investigation Flag", whatever else is missing |
| `Pipeline.SingleMissing` | claims_router.py:28-32 | when only one field is missing, the missing list is exactly that field |
| `Pipeline.OnlyPolicyNumberMissing` | claims_router.py:53-54 | a claim missing only its policy number, with no fraud keyword, goes to manual review with reasoning `Missing mandatory fields: policyNumber` |

## Left out

- `extract_with_llm` (llm_extractor.py:9-81) is not modelled. It calls a language model through Ollama and langchain and parses the reply as JSON, so its result is not a function of its input.
- The `print` calls in both files are logging only and are not modelled.
- ocr_extractor.py, main.py and test_text_samples.py are not part of this model. They do PDF and OCR work through external libraries, command-line handling, and file reading.
- Python's `re` engine is not modelled in general. Each of the nine fixed patterns (the six field patterns and the three claim-type patterns) has its own hand-written matcher, whose comment argues that it follows the engine's first successful path.
- Case mapping is ASCII only. This covers `str.lower()`, `str.upper()` and `re.IGNORECASE`. Python also maps non-ASCII letters (and `ß` upper-cases to two characters); the model leaves such characters unchanged.
- `\w`, `\d` and `\b` are ASCII only. Python's `str` patterns also accept non-ASCII letters and digits. Whitespace, by contrast, is Python's full `str.isspace()` set.
- `estimatedDamage` is an integer. The language-model path can put a float or a string there, and that path is out of scope. The claim type is kept as a string, as the router compares it with `"injury"`.
- `fallback_extraction` being a pure function of its text needs no lemma. Every Dafny function is deterministic.
- Extractor.DetermineClaimType: the contract states what each result implies the text holds, not the converse. The priority order is stated for all texts by `InjuryOutranks`, `TheftOutranksFire` and `FireOutranksNonInjury`. `StolenCarFireIsTheft`, `HouseFireIsFire` and `FireDepartmentIsNotFire` illustrate it on fixed texts.
- Extractor.ExtractPolicyNumber: the contract states the clean-up's shape and the label's presence, not which token the matcher captures.
- Extractor.ExtractPolicyholderName: the contract states the clean-up's shape and the label's presence, not where the lazy name group stops.
- Extractor.ExtractIncidentLocation: the contract states the clean-up's shape and the label's presence, not which of the backtracking alternatives ends the place.

=== FILE: extractor.dfy ===
/** The deterministic fallback extraction of llm_extractor.py: what each field's
    pattern captures, how the capture is cleaned up, how the amount is read and
    how the claim type is classified. */
module Extractor {
  import opened Options
  import opened Text
  import opened Numbers
  import opened Patterns
  import opened Schema

  /** The longest description the fallback keeps. */
  const DescriptionCap: nat := 500

  /** The strings `determine_claim_type` can return. */
  const KindNames: set<string> := {"injury", "theft", "fire", "non-injury"}

  /** The closed set of claim types the classifier produces. */
  datatype ClaimKind = Injury | Theft | Fire | NonInjury {
    /** The string stored under `claimType`. */
    function Name(): (s: string)
      ensures s in KindNames
    {
      match this
      case Injury => "injury"
      case Theft => "theft"
      case Fire => "fire"
      case NonInjury => "non-injury"
    }
  }

  function Capture(t: string, s: Span): string
    requires Within(s, t)
  {
    t[s.lo..s.hi]
  }

  /** `extract_regex`'s clean-up of a capture: strip, collapse whitespace, and
      no value at all rather than an empty one. */
  function Tidy(capture: string): (r: Option<string>)
    ensures r.Some? ==> r.value != "" && Clean(r.value)
    ensures r.Some? ==> NonSpace(r.value) == NonSpace(capture)
    ensures r.None? <==> forall i :: 0 <= i < |capture| ==> IsSpace(capture[i])
  {
    var x := Collapse(Strip(capture));
    if x == "" then None else Some(x)
  }

  /** Tidying is idempotent: a tidied value comes back unchanged. */
  lemma TidyIdempotent(capture: string)
    requires Tidy(capture).Some?
    ensures Tidy(Tidy(capture).value) == Tidy(capture)
  {
    var x := Tidy(capture).value;
    assert Strip(x) == x by {
      assert TrimStart(x) == x;
      assert TrimEnd(x) == x;
    }
    CollapseSingleSpaced(x);
  }

  /** Between two clean words or phrases, a run of whitespace of any length
      and kind comes out as one plain space. */
  lemma TidyJoinsWords(a: string, w: string, b: string)
    requires a != "" && Clean(a) && b != "" && Clean(b)
    requires |w| > 0 && forall i :: 0 <= i < |w| ==> IsSpace(w[i])
    ensures Tidy(a + w + b) == Some(a + " " + b)
  {
    var s := a + w + b;
    assert s[0] == a[0] && s[|s| - 1] == b[|b| - 1];
    assert TrimStart(s) == s;
    assert TrimEnd(s) == s;
    CollapseBlankRun(a, w, b);
    CollapseSingleSpaced(a);
    CollapseSingleSpaced(b);
  }

  /** A capture without whitespace is kept exactly as captured. */
  lemma TidyOfSpaceFree(capture: string)
    requires capture != "" && forall i :: 0 <= i < |capture| ==> !IsSpace(capture[i])
    ensures Tidy(capture) == Some(capture)
  {
    assert TrimStart(capture) == capture;
    assert TrimEnd(capture) == capture;
    SpaceFreeSingleSpaced(capture);
    CollapseSingleSpaced(capture);
  }

  /** A captured date is kept exactly as captured. */
  lemma DateCapture(t: string, lo: nat, hi: nat)
    requires DateShapeAt(t, lo) && hi == lo + 10
    ensures |t[lo..hi]| == 10 && DateShapeAt(t[lo..hi], 0)
    ensures Tidy(t[lo..hi]) == Some(t[lo..hi])
  {
    var d := t[lo..hi];
    assert DateShapeAt(d, 0);
    DateSpaceFree(d);
    TidyOfSpaceFree(d);
  }

  /** A date has no whitespace in it. */
  lemma DateSpaceFree(d: string)
    requires |d| == 10 && DateShapeAt(d, 0)
    ensures forall i :: 0 <= i < |d| ==> !IsSpace(d[i])
  {
    forall i | 0 <= i < |d| ensures !IsSpace(d[i]) {
      assert IsDigit(d[i]) || d[i] == '/';
    }
  }

  /** `extract_description`'s clean-up: the same as `Tidy`, then cut to 500 characters. */
  function TidyCapped(capture: string): (r: Option<string>)
    ensures r.Some? ==> r.value != "" && |r.value| <= DescriptionCap
    ensures r.Some? ==> SingleSpaced(r.value) && !IsSpace(r.value[0])
    ensures r.None? <==> Tidy(capture).None?
    ensures r.Some? ==> r.value == Take(Tidy(capture).value, DescriptionCap)
  {
    var x := Collapse(Strip(capture));
    var y := if |x| > DescriptionCap then x[..DescriptionCap] else x;
    PrefixSingleSpaced(x, DescriptionCap);
    if y == "" then None else Some(y)
  }

  function ExtractPolicyNumber(t: string): (r: Option<string>)
    ensures r.Some? ==> r.value != "" && Clean(r.value)
    ensures r.Some? ==> exists i :: 0 <= i <= |t| && LabelAt(t, i, PolicyLabel, true)
  {
    var m := Search(t, 0, (i: nat) => PolicyNumberAt(t, i));
    if m.None? then None
    else
      assert Within(m.value, t) && exists i :: 0 <= i <= |t| && LabelAt(t, i, PolicyLabel, true) by {
        var i :| 0 <= i <= |t| && PolicyNumberAt(t, i) == m;
      }
      Tidy(Capture(t, m.value))
  }

  function ExtractPolicyholderName(t: string): (r: Option<string>)
    ensures r.Some? ==> r.value != "" && Clean(r.value)
    ensures r.Some? ==> exists i :: 0 <= i <= |t| && LabelAt(t, i, NameLabel, true)
  {
    var m := Search(t, 0, (i: nat) => NameAt(t, i));
    if m.None? then None
    else
      assert Within(m.value, t) && exists i :: 0 <= i <= |t| && LabelAt(t, i, NameLabel, true) by {
        var i :| 0 <= i <= |t| && NameAt(t, i) == m;
      }
      Tidy(Capture(t, m.value))
  }

  function ExtractIncidentDate(t: string): (r: Option<string>)
    ensures r.Some? ==> |r.value| == 10 && DateShapeAt(r.value, 0)
    ensures r.Some? ==> exists i :: 0 <= i <= |t| && LabelAt(t, i, DateLabel, true)
    ensures r.Some? ==> exists i: nat, lo: nat :: FirstDateOnLine(t, i, lo) && t[lo..lo + 10] == r.value
  {
    var m := Search(t, 0, (i: nat) => DateAt(t, i));
    if m.None? then None
    else
      DateMatch(t, m);
      Tidy(Capture(t, m.value))
  }

  /** What a found date match carries: its capture tidies to itself, a
      date-shaped text of ten characters, found after the label and first on
      its line. */
  lemma DateMatch(t: string, m: Option<Span>)
    requires m == Search(t, 0, (i: nat) => DateAt(t, i)) && m.Some?
    ensures Within(m.value, t)
    ensures var d := Tidy(Capture(t, m.value)); d.Some? && |d.value| == 10 && DateShapeAt(d.value, 0)
    ensures exists i :: 0 <= i <= |t| && LabelAt(t, i, DateLabel, true)
    ensures exists i: nat, lo: nat :: FirstDateOnLine(t, i, lo) && t[lo..lo + 10] == Tidy(Capture(t, m.value)).value
  {
    var i: nat :| i <= |t| && DateAt(t, i) == m;
    DateFound(t, i, m.value.lo, m.value.hi);
  }

  /** A date found after the label, first on its line, tidies to itself. */
  lemma DateFound(t: string, i: nat, lo: nat, hi: nat)
    requires i <= |t| && LabelAt(t, i, DateLabel, true) && FirstDateOnLine(t, i, lo)
    requires DateShapeAt(t, lo) && hi == lo + 10 <= |t|
    ensures var d := Tidy(t[lo..hi]); d.Some? && |d.value| == 10 && DateShapeAt(d.value, 0)
    ensures exists i :: 0 <= i <= |t| && LabelAt(t, i, DateLabel, true)
    ensures exists i: nat, lo': nat :: FirstDateOnLine(t, i, lo') && t[lo'..lo' + 10] == Tidy(t[lo..hi]).value
  {
    DateCapture(t, lo, hi);
    assert FirstDateOnLine(t, i, lo) && t[lo..lo + 10] == Tidy(t[lo..hi]).value;
  }

  /** A date written after the label, with nothing on the way that is a digit
      or ends the line, is the date extracted, whatever comes before the label
      (so long as no date match starts there) and whatever follows the date. */
  lemma DateAfterLabel(pre: string, mid: string, d: string, rest: string)
    requires |d| == 10 && DateShapeAt(d, 0)
    requires forall k :: 0 <= k < |mid| ==> mid[k] != '\n' && !IsDigit(mid[k])
    requires var t := pre + (DateLabel + mid + d + rest);
      forall i :: 0 <= i < |pre| ==> DateAt(t, i).None?
    ensures ExtractIncidentDate(pre + (DateLabel + mid + d + rest)) == Some(d)
  {
    var u := DateLabel + mid + d + rest;
    var t := pre + u;
    var p, n := |pre|, |DateLabel|;
    var lo := p + n + |mid|;
    assert t[p..][..n] == u[..n] == DateLabel;
    forall k | p + n <= k < lo ensures t[k] != '\n' && !IsDigit(t[k]) {
      assert t[k] == u[k - p] == mid[k - p - n];
    }
    assert t[lo..lo + 10] == u[n + |mid|..n + |mid| + 10] == d;
    assert DateShapeAt(t, lo) by {
      forall k | 0 <= k < 10 ensures t[lo + k] == d[k] {
        assert t[lo + k] == t[lo..lo + 10][k];
      }
    }
    LabelAtSuffix(t, p, DateLabel);
    DateReadsBack(t, p, lo, d);
  }

  /** The label at the first matching index `p`, then a date at `lo` with no
      digit or line end between them: the date extracted is the one at `lo`. */
  lemma DateReadsBack(t: string, p: nat, lo: nat, d: string)
    requires LabelAt(t, p, DateLabel, true) && p + |DateLabel| <= lo
    requires DateShapeAt(t, lo) && t[lo..lo + 10] == d
    requires forall k :: p + |DateLabel| <= k < lo ==> t[k] != '\n' && !IsDigit(t[k])
    requires forall i :: 0 <= i < p ==> DateAt(t, i).None?
    ensures ExtractIncidentDate(t) == Some(d)
  {
    DateOnLine(t, p + |DateLabel|, lo);
    var m := DateAt(t, p).value;
    assert m.lo == lo && m.hi == lo + 10;
    ExtractIncidentDateAtFirst(t, p, d);
  }

  /** A worked example: `DATE OF LOSS: 01/15/2024` gives `01/15/2024`. */
  lemma DateExample()
    ensures ExtractIncidentDate("DATE OF LOSS: 01/15/2024") == Some("01/15/2024")
  {
    var d := "01/15/2024";
    assert DateShapeAt(d, 0);
    assert "" + (DateLabel + ": " + d + "") == "DATE OF LOSS: 01/15/2024";
    DateAfterLabel("", ": ", d, "");
  }

  /** The lazy `[^\n]*?` from `j` stops at a date at `lo` when nothing before it
      on the way is a digit or a line end. */
  lemma DateOnLine(t: string, j: nat, lo: nat)
    requires j <= lo && DateShapeAt(t, lo)
    requires forall k :: j <= k < lo ==> t[k] != '\n' && !IsDigit(t[k])
    ensures DateFrom(t, j).Some? && DateFrom(t, j).value.lo == lo
  {
    var r := DateFrom(t, j);
    assert r.None? ==> !DateShapeAt(t, lo);
    assert r.Some? && r.value.lo > lo ==> !DateShapeAt(t, lo);
  }

  /** The date comes from the first start index where the pattern matches: it
      is that match's capture, unchanged by the clean-up. */
  lemma ExtractIncidentDateAtFirst(t: string, p: nat, d: string)
    requires p <= |t| && DateAt(t, p).Some? && Capture(t, DateAt(t, p).value) == d
    requires forall i :: 0 <= i < p ==> DateAt(t, i).None?
    ensures ExtractIncidentDate(t) == Some(d)
  {
    var at := (i: nat) => DateAt(t, i);
    forall j | 0 <= j < p ensures at(j).None? {
      assert at(j) == DateAt(t, j);
    }
    assert at(p) == DateAt(t, p);
    SearchFirst(t, 0, p, at);
    var m := DateAt(t, p).value;
    DateCapture(t, m.lo, m.hi);
  }

  function ExtractIncidentLocation(t: string): (r: Option<string>)
    ensures r.Some? ==> r.value != "" && Clean(r.value)
    ensures r.Some? ==> exists i :: 0 <= i <= |t| && LabelAt(t, i, "CITY,", true)
  {
    var m := Search(t, 0, (i: nat) => LocationAt(t, i));
    if m.None? then None
    else
      assert Within(m.value, t) && exists i :: 0 <= i <= |t| && LabelAt(t, i, "CITY,", true) by {
        var i :| 0 <= i <= |t| && LocationAt(t, i) == m;
      }
      Tidy(Capture(t, m.value))
  }

  /** `extract_description` */
  function ExtractDescription(t: string): (r: Option<string>)
    ensures r.Some? ==> r.value != "" && |r.value| <= DescriptionCap && SingleSpaced(r.value)
    ensures r.Some? ==> exists i :: 0 <= i <= |t| && LabelAt(t, i, DescriptionLabel, true)
  {
    var m := Search(t, 0, (i: nat) => DescriptionAt(t, i));
    if m.None? then None
    else
      assert Within(m.value, t) && exists i :: 0 <= i <= |t| && LabelAt(t, i, DescriptionLabel, true) by {
        var i :| 0 <= i <= |t| && DescriptionAt(t, i) == m;
      }
      TidyCapped(Capture(t, m.value))
  }

  /** The description comes from the first description label: it is that
      match's capture, tidied and capped, and there is one exactly when the
      capture holds a non-blank character. */
  lemma ExtractDescriptionAtFirstLabel(t: string, p: nat)
    requires p <= |t| && LabelAt(t, p, DescriptionLabel, true)
    requires forall i :: 0 <= i < p ==> !LabelAt(t, i, DescriptionLabel, true)
    ensures ExtractDescription(t) == TidyCapped(Capture(t, DescriptionAt(t, p).value))
    ensures var m := DescriptionAt(t, p).value;
      ExtractDescription(t).Some? <==> exists k :: m.lo <= k < m.hi && !IsSpace(t[k])
  {
    var at := (i: nat) => DescriptionAt(t, i);
    forall j | 0 <= j < p ensures at(j).None? {
      assert at(j) == DescriptionAt(t, j);
    }
    assert at(p) == DescriptionAt(t, p);
    SearchFirst(t, 0, p, at);
    CaptureBlank(t, DescriptionAt(t, p).value);
  }

  /** A capture tidies to nothing exactly when every character in its span is blank. */
  lemma CaptureBlank(t: string, m: Span)
    requires Within(m, t)
    ensures Tidy(Capture(t, m)).Some? <==> exists k :: m.lo <= k < m.hi && !IsSpace(t[k])
  {
    var c := Capture(t, m);
    if exists k :: m.lo <= k < m.hi && !IsSpace(t[k]) {
      var k :| m.lo <= k < m.hi && !IsSpace(t[k]);
      assert c[k - m.lo] == t[k];
    } else {
      forall i | 0 <= i < |c| ensures IsSpace(c[i]) {
        assert c[i] == t[m.lo + i];
      }
    }
  }

  /** The description is what lies between its label and the next section label:
      with `WITNESSES` after it and no section label inside it, the capture is
      exactly the body, tidied and capped. Any text may come before the label,
      so long as it holds no earlier description label. */
  lemma DescriptionStopsAtSection(pre: string, body: string, rest: string)
    requires body == "" || !IsSpace(body[0])
    requires var t := pre + (DescriptionLabel + ": " + body + "WITNESSES" + rest);
      forall i :: 0 <= i < |pre| ==> !LabelAt(t, i, DescriptionLabel, true)
    requires var t := pre + (DescriptionLabel + ": " + body + "WITNESSES" + rest);
      var b := |pre| + |DescriptionLabel| + 2;
      forall k :: b <= k < b + |body| ==> !SectionAt(t, k)
    ensures ExtractDescription(pre + (DescriptionLabel + ": " + body + "WITNESSES" + rest)) == TidyCapped(body)
  {
    var u := DescriptionLabel + ": " + body + "WITNESSES" + rest;
    var t := pre + u;
    var p, n := |pre|, |DescriptionLabel|;
    var b := p + n + 2;
    var e := b + |body|;
    assert t[p..p + n] == u[..n] == DescriptionLabel;
    assert t[p + n] == u[n] == ':' && t[p + n + 1] == u[n + 1] == ' ';
    assert b == |t| || !IsSpace(t[b]) by {
      if body == "" {
        assert t[b] == u[n + 2] == 'W';
      } else {
        assert t[b] == u[n + 2] == body[0];
      }
    }
    MiddleOfConcat(DescriptionLabel + ": ", body, "WITNESSES", rest);
    assert t[b..e] == u[n + 2..n + 2 + |body|] == body;
    assert t[e..e + 9] == u[n + 2 + |body|..n + 11 + |body|] == "WITNESSES";
    DescriptionOpens(t, p);
    DescriptionCloses(t, b, e);
    ExtractDescriptionAtFirstLabel(t, p);
  }

  /** The label, a colon and a blank open the description; the body starts right after. */
  lemma DescriptionOpens(t: string, p: nat)
    requires var n := p + |DescriptionLabel|;
      && n + 2 <= |t| && t[p..n] == DescriptionLabel && t[n] == ':' && t[n + 1] == ' '
      && (n + 2 == |t| || !IsSpace(t[n + 2]))
    ensures LabelAt(t, p, DescriptionLabel, true)
    ensures var n := p + |DescriptionLabel|; DescriptionAt(t, p) == Some(Span(n + 2, DescriptionEnd(t, n + 2)))
  {
    var n := p + |DescriptionLabel|;
    assert t[p..][..|DescriptionLabel|] == t[p..n];
    LabelAtSuffix(t, p, DescriptionLabel);
    RunEndOver(t, n, n, IsSpace);
    RunEndOver(t, n + 1, n + 2, IsSpace);
  }

  /** A following `WITNESSES` closes the description, when no section label comes first. */
  lemma DescriptionCloses(t: string, b: nat, e: nat)
    requires b <= e && e + 9 <= |t| && t[e..e + 9] == "WITNESSES"
    requires forall k :: b <= k < e ==> !SectionAt(t, k)
    ensures DescriptionEnd(t, b) == e
  {
    assert LabelAt(t, e, "WITNESSES", true);
    forall k | b <= k < e ensures !AtEnd(t, k) {
      assert k + 1 < |t|;
    }
    DescriptionEndOver(t, b, e);
  }

  /** `extract_amount`: the first `ESTIMATE AMOUNT` (exact case) followed by a
      numeral, read with its separators dropped. */
  function ExtractAmount(t: string): (r: Option<int>)
    ensures r.Some? ==> r.value >= 0
    ensures r.Some? <==> exists i :: 0 <= i <= |t| && AmountAt(t, i).Some?
    ensures (forall i :: 0 <= i <= |t| ==> !LabelAt(t, i, AmountLabel, false)) ==> r.None?
  {
    var m := Search(t, 0, (i: nat) => AmountAt(t, i));
    if m.None? then
      NoAmount(t);
      None
    else
      assert Within(m.value, t) && NumeralChars(Capture(t, m.value)) by {
        var i :| 0 <= i <= |t| && AmountAt(t, i) == m;
      }
      Some(ParseGrouped(Capture(t, m.value)))
  }

  /** Where the search finds no amount, no start index matches. */
  lemma NoAmount(t: string)
    requires Search(t, 0, (i: nat) => AmountAt(t, i)).None?
    ensures forall i :: 0 <= i <= |t| ==> AmountAt(t, i).None?
  {
    var at := (i: nat) => AmountAt(t, i);
    forall i | 0 <= i <= |t| ensures AmountAt(t, i).None? {
      assert at(i) == AmountAt(t, i);
    }
  }

  /** An amount written as `format(n, ',')` after the label reads back as `n`,
      whatever follows it, so long as that does not continue the numeral, and
      whatever comes before the label, so long as no amount matches there. */
  lemma AmountRoundTrip(pre: string, n: nat, rest: string)
    requires rest == "" || (!IsDigit(rest[0]) && rest[0] != ',')
    requires var t := pre + (AmountLabel + ": $" + FormatThousands(n) + rest);
      forall i :: 0 <= i < |pre| ==> AmountAt(t, i).None?
    ensures ExtractAmount(pre + (AmountLabel + ": $" + FormatThousands(n) + rest)) == Some(n)
  {
    var f := FormatThousands(n);
    var t := pre + (AmountLabel + ": $" + f + rest);
    AmountHead(t, pre, f, rest);
    AmountReadsBack(t, |pre|, n, rest);
  }

  /** `ESTIMATE AMOUNT: $` and `format(n, ',')` at the first matching index make the amount `n`. */
  lemma AmountReadsBack(t: string, p: nat, n: nat, rest: string)
    requires rest == "" || (!IsDigit(rest[0]) && rest[0] != ',')
    requires var l := p + |AmountLabel|;
      && l + 3 <= |t| && t[p..l] == AmountLabel
      && t[l] == ':' && t[l + 1] == ' ' && t[l + 2] == '$' && t[l + 3..] == FormatThousands(n) + rest
    requires forall i :: 0 <= i < p ==> AmountAt(t, i).None?
    ensures ExtractAmount(t) == Some(n)
  {
    var ld, gs := Decimal(Leading(n)), Groups(n);
    assert FormatThousands(n) == ld + gs;
    AmountSpan(t, p, ld, gs, rest);
    ExtractAmountAtFirst(t, p);
    ParseFormatRoundTrip(n);
  }

  /** The amount comes from the first start index where the pattern matches:
      it is that match's numeral, read with its separators dropped. */
  lemma ExtractAmountAtFirst(t: string, p: nat)
    requires p <= |t| && AmountAt(t, p).Some?
    requires forall i :: 0 <= i < p ==> AmountAt(t, i).None?
    ensures ExtractAmount(t) == Some(ParseGrouped(Capture(t, AmountAt(t, p).value)))
  {
    var at := (i: nat) => AmountAt(t, i);
    forall j | 0 <= j < p ensures at(j).None? {
      assert at(j) == AmountAt(t, j);
    }
    assert at(p) == AmountAt(t, p);
    SearchFirst(t, 0, p, at);
  }

  /** Where a grouped numeral sits: after `ESTIMATE AMOUNT: $` at `p`, the
      capture is the numeral (leading digits `ld`, then `,ddd` groups `gs`),
      all of it, whatever follows that does not continue it. */
  lemma AmountSpan(t: string, p: nat, ld: string, gs: string, rest: string)
    requires |ld| > 0 && AllDigits(ld) && IsGroups(gs)
    requires rest == "" || (!IsDigit(rest[0]) && rest[0] != ',')
    requires var l := p + |AmountLabel|;
      && l + 3 <= |t| && t[p..l] == AmountLabel
      && t[l] == ':' && t[l + 1] == ' ' && t[l + 2] == '$' && t[l + 3..] == ld + gs + rest
    ensures AmountAt(t, p).Some? && AmountAt(t, p).value.lo == p + |AmountLabel| + 3
    ensures Capture(t, AmountAt(t, p).value) == ld + gs
  {
    var d := p + |AmountLabel| + 3;
    var e := NumeralEnd(t, d, ld, gs, rest);
    AmountOpens(t, p, e);
    assert AmountAt(t, p).value.hi == e;
  }

  /** The characters of the label, `: $` and what follows, read off by index. */
  lemma AmountHead(t: string, pre: string, f: string, rest: string)
    requires t == pre + (AmountLabel + ": $" + f + rest)
    ensures var p, l := |pre|, |pre| + |AmountLabel|;
      && l + 3 <= |t| && t[p..l] == AmountLabel
      && t[l] == ':' && t[l + 1] == ' ' && t[l + 2] == '$' && t[l + 3..] == f + rest
  {
    var u := AmountLabel + ": $" + f + rest;
    var p, l := |pre|, |AmountLabel|;
    assert t[p..p + l] == u[..l] == AmountLabel;
    assert t[p + l] == u[l] && t[p + l + 1] == u[l + 1] && t[p + l + 2] == u[l + 2];
    assert t[p + l + 3..] == u[l + 3..] == f + rest;
  }

  /** The label, a colon, a blank and a dollar sign open the amount; the
      numeral starts right after and the greedy groups end at `e`. */
  lemma AmountOpens(t: string, p: nat, e: nat)
    requires var l := p + |AmountLabel|;
      && l + 3 < |t| && t[p..l] == AmountLabel
      && t[l] == ':' && t[l + 1] == ' ' && t[l + 2] == '$' && IsDigit(t[l + 3])
    requires GroupsEnd(t, RunEnd(t, p + |AmountLabel| + 3, IsDigit)) == e
    ensures AmountAt(t, p) == Some(Span(p + |AmountLabel| + 3, e))
  {
    var l := p + |AmountLabel|;
    assert t[p..][..|AmountLabel|] == t[p..l];
    LabelAtSuffix(t, p, AmountLabel);
    RunEndOver(t, l, l, IsSpace);
    RunEndOver(t, l + 1, l + 2, IsSpace);
  }

  /** The greedy digits and groups from `d` consume exactly `format(n, ',')`. */
  lemma NumeralEnd(t: string, d: nat, ld: string, gs: string, rest: string) returns (e: nat)
    requires |ld| > 0 && AllDigits(ld) && IsGroups(gs)
    requires rest == "" || (!IsDigit(rest[0]) && rest[0] != ',')
    requires d <= |t| && t[d..] == ld + gs + rest
    ensures e == d + |ld| + |gs| <= |t| && t[d..e] == ld + gs
    ensures d < |t| && IsDigit(t[d])
    ensures GroupsEnd(t, RunEnd(t, d, IsDigit)) == e
  {
    var u := t[d..];
    assert t[d] == u[0] == ld[0];
    var m := d + |ld|;
    assert forall k :: d <= k < m ==> t[k] == u[k - d] == ld[k - d];
    assert m == |t| || !IsDigit(t[m]) by {
      if m < |t| {
        assert t[m] == u[|ld|];
        if |gs| > 0 {
          assert IsGroupAt(gs, 0);
          assert u[|ld|] == gs[0];
        } else {
          assert u[|ld|] == rest[0];
        }
      }
    }
    RunEndOver(t, d, m, IsDigit);
    assert u[..|ld| + |gs|] == ld + gs;
    assert t[m..m + |gs|] == gs by {
      assert t[m..m + |gs|] == u[|ld|..|ld| + |gs|] == u[..|ld| + |gs|][|ld|..];
      assert (ld + gs)[|ld|..] == gs;
    }
    e := m + |gs|;
    assert !IsGroupAt(t, e) by {
      if e < |t| {
        assert t[e] == u[|ld| + |gs|] == rest[0];
      }
    }
    GroupsEndOver(t, m, gs);
    assert t[d..e] == u[..|ld| + |gs|];
  }

  /** A worked example: `ESTIMATE AMOUNT: $45,000` gives 45000. */
  lemma AmountExample()
    ensures ExtractAmount("ESTIMATE AMOUNT: $45,000") == Some(45000)
  {
    assert Leading(45000) == Leading(45) == 45;
    assert DigitChar(4) == '4' && DigitChar(5) == '5' && DigitChar(0) == '0';
    assert Decimal(45) == Decimal(4) + [DigitChar(5)] == "45";
    assert Pad3(0) == "000";
    assert Groups(45000) == Groups(45) + [','] + Pad3(0) == ",000";
    assert FormatThousands(45000) == "45" + ",000" == "45,000";
    var t := "" + (AmountLabel + ": $" + FormatThousands(45000) + "");
    assert t == "ESTIMATE AMOUNT: $45,000" by {
      assert AmountLabel + ": $" == "ESTIMATE AMOUNT: $";
    }
    AmountRoundTrip("", 45000, "");
  }

  /** The amount label is matched case-sensitively: a lower-cased text never yields an amount. */
  lemma AmountLabelCaseSensitive(s: string)
    ensures ExtractAmount(Lower(s)) == None
  {
    var t := Lower(s);
    forall i | 0 <= i <= |t| ensures !LabelAt(t, i, AmountLabel, false) {
      if i + |AmountLabel| <= |t| {
        assert AmountLabel[0] == 'E' && t[i] != 'E';
      }
    }
  }

  /** `determine_claim_type`: the first pattern family, in priority order, that
      matches anywhere in the upper-cased text. */
  function DetermineClaimType(t: string): (r: ClaimKind)
    ensures r == Injury ==>
      exists i :: 0 <= i <= |t| && (LabelAt(t, i, "INJUR", true) || LabelAt(t, i, "EXTENT OF INJURY", true))
    ensures r == Theft ==>
      exists i :: 0 <= i <= |t| && (LabelAt(t, i, "THEFT", true) || LabelAt(t, i, "STOLEN", true))
    ensures r == Fire ==> exists i :: 0 <= i <= |t| && LabelAt(t, i, "FIRE", true)
  {
    var u := Upper(t);
    if exists i | 0 <= i <= |u| :: InjuryAt(u, i) then
      assert exists i :: 0 <= i <= |t| && (LabelAt(t, i, "INJUR", true) || LabelAt(t, i, "EXTENT OF INJURY", true)) by {
        var i :| 0 <= i <= |u| && InjuryAt(u, i);
        if LabelAt(u, i, "INJUR", false) {
          UpperLabelFolded(t, i, "INJUR");
        } else {
          UpperLabelFolded(t, i, "EXTENT OF INJURY");
        }
      }
      Injury
    else if exists i | 0 <= i <= |u| :: TheftAt(u, i) then
      assert exists i :: 0 <= i <= |t| && (LabelAt(t, i, "THEFT", true) || LabelAt(t, i, "STOLEN", true)) by {
        var i :| 0 <= i <= |u| && TheftAt(u, i);
        if LabelAt(u, i, "THEFT", false) {
          UpperLabelFolded(t, i, "THEFT");
        } else {
          UpperLabelFolded(t, i, "STOLEN");
        }
      }
      Theft
    else if exists i | 0 <= i <= |u| :: FireAt(u, i) then
      assert exists i :: 0 <= i <= |t| && LabelAt(t, i, "FIRE", true) by {
        var i :| 0 <= i <= |u| && FireAt(u, i);
        UpperLabelFolded(t, i, "FIRE");
      }
      Fire
    else NonInjury
  }

  /** A literal found in the upper-cased text occurs in the text itself,
      compared case-insensitively. */
  lemma UpperLabelFolded(t: string, i: nat, l: string)
    requires LabelAt(Upper(t), i, l, false)
    ensures LabelAt(t, i, l, true)
  {
    forall k | 0 <= k < |l| ensures FoldEq(t[i + k], l[k]) {
      assert Upper(t)[i + k] == ToUpper(t[i + k]) == l[k];
    }
  }

  /** `fallback_extraction`: one pattern per field, each independent of the others. */
  function FallbackExtraction(t: string): (r: ClaimFields)
    ensures r.claimType.Some? && r.claimType.value in KindNames
    ensures r.policyNumber.Some? ==> r.policyNumber.value != "" && Clean(r.policyNumber.value)
    ensures r.policyholderName.Some? ==> r.policyholderName.value != "" && Clean(r.policyholderName.value)
    ensures r.incidentDate.Some? ==> |r.incidentDate.value| == 10 && DateShapeAt(r.incidentDate.value, 0)
    ensures r.incidentLocation.Some? ==> r.incidentLocation.value != "" && Clean(r.incidentLocation.value)
    ensures r.description.Some? ==> r.description.value != "" && |r.description.value| <= DescriptionCap
    ensures r.estimatedDamage.Some? ==> r.estimatedDamage.value >= 0
    ensures !IsMissing(r, ClaimType)
  {
    ClaimFields(
      policyNumber := ExtractPolicyNumber(t),
      policyholderName := ExtractPolicyholderName(t),
      incidentDate := ExtractIncidentDate(t),
      incidentLocation := ExtractIncidentLocation(t),
      description := ExtractDescription(t),
      estimatedDamage := ExtractAmount(t),
      claimType := Some(DetermineClaimType(t).Name()))
  }

  /** Classification runs on the upper-cased text, so the case of the input does not matter. */
  lemma ClaimTypeIgnoresCase(t: string)
    ensures DetermineClaimType(Lower(t)) == DetermineClaimType(t)
    ensures DetermineClaimType(Upper(t)) == DetermineClaimType(t)
  {
    UpperOfLower(t);
    assert Upper(Upper(t)) == Upper(t);
  }

  /** A label compared case-insensitively with an upper-case literal is that literal
      once the text is upper-cased. */
  lemma FoldedLabelUpper(t: string, i: nat, l: string)
    requires LabelAt(t, i, l, true)
    requires forall k :: 0 <= k < |l| ==> !IsLowerAscii(l[k])
    ensures LabelAt(Upper(t), i, l, false)
  {
    var u := Upper(t);
    forall k | 0 <= k < |l| ensures u[i + k] == l[k] {
      assert FoldEq(t[i + k], l[k]);
    }
  }

  /** Injury outranks the other types: a match of any injury alternative
      (`INJURED` and a name, `EXTENT OF INJURY`, `INJURY TO`, `INJURED PARTIES`)
      anywhere in the upper-cased text makes the claim an injury, whatever theft
      or fire words the text also has. */
  lemma InjuryOutranks(t: string, i: nat)
    requires i <= |t| && InjuryAt(Upper(t), i)
    ensures DetermineClaimType(t) == Injury
  {
    assert i <= |Upper(t)|;
  }

  /** Injury outranks the other types: an `EXTENT OF INJURY` anywhere, in any case,
      makes the claim an injury whatever else the text says, a theft included. */
  lemma ExtentOfInjuryWins(t: string, i: nat)
    requires LabelAt(t, i, "EXTENT OF INJURY", true)
    ensures DetermineClaimType(t) == Injury
  {
    FoldedLabelUpper(t, i, "EXTENT OF INJURY");
    assert InjuryAt(Upper(t), i);
  }

  /** A literal whose `k`-th character differs from the text's does not occur there. */
  lemma Mismatch(u: string, i: nat, l: string, k: nat)
    requires k < |l| && (i + k < |u| ==> u[i + k] != l[k])
    ensures !LabelAt(u, i, l, false)
  {
  }

  /** None of the injury patterns can start at `i` when the text there starts
      neither `IN` nor `EX`. */
  lemma NoInjuryAt(u: string, i: nat)
    requires i < |u| && u[i] == 'I' ==> i + 1 < |u| && u[i + 1] != 'N'
    requires i < |u| && u[i] == 'E' ==> i + 1 < |u| ==> u[i + 1] != 'X'
    ensures !InjuryAt(u, i)
  {
    var ki := if i < |u| && u[i] == 'I' then 1 else 0;
    var ke := if i < |u| && u[i] == 'E' then 1 else 0;
    Mismatch(u, i, "INJURED", ki);
    Mismatch(u, i, "INJURY", ki);
    Mismatch(u, i, "EXTENT OF INJURY", ke);
  }

  /** Theft outranks fire: a text with a whole word `STOLEN` and `FIRE` but
      nothing about injury is a theft. */
  lemma StolenCarFireIsTheft()
    ensures DetermineClaimType("STOLEN CAR FIRE") == Theft
  {
    var u := Upper("STOLEN CAR FIRE");
    assert u == "STOLEN CAR FIRE";
    forall i | 0 <= i <= |u| ensures !InjuryAt(u, i) {
      NoInjuryAt(u, i);
    }
    assert TheftAt(u, 0);
  }

  /** Theft outranks fire: with no injury pattern anywhere, a theft word anywhere
      makes the claim a theft, whatever fire words the text also has. */
  lemma TheftOutranksFire(t: string, i: nat)
    requires forall j :: 0 <= j <= |t| ==> !InjuryAt(Upper(t), j)
    requires i <= |t| && TheftAt(Upper(t), i)
    ensures DetermineClaimType(t) == Theft
  {
    assert i <= |Upper(t)|;
  }

  /** Fire outranks the default: with neither an injury nor a theft pattern
      anywhere, a fire word anywhere makes the claim a fire. */
  lemma FireOutranksNonInjury(t: string, i: nat)
    requires forall j :: 0 <= j <= |t| ==> !InjuryAt(Upper(t), j) && !TheftAt(Upper(t), j)
    requires i <= |t| && FireAt(Upper(t), i)
    ensures DetermineClaimType(t) == Fire
  {
    assert i <= |Upper(t)|;
  }

  /** A worked example of the fire rule: `house fire` is a fire. */
  lemma HouseFireIsFire()
    ensures DetermineClaimType("house fire") == Fire
  {
    var u := Upper("house fire");
    assert u == "HOUSE FIRE";
    forall i | 0 <= i <= |u| ensures !InjuryAt(u, i) && !TheftAt(u, i) {
      NothingButFireInHouseFire(u, i);
    }
    assert WordAt(u, 6, "FIRE");
    assert RunEnd(u, 10, IsSpace) == 10;
    assert FireAt(u, 6);
  }

  /** No injury or theft pattern matches anywhere in `HOUSE FIRE`. */
  lemma NothingButFireInHouseFire(u: string, i: nat)
    requires u == "HOUSE FIRE" && i <= |u|
    ensures !InjuryAt(u, i) && !TheftAt(u, i)
  {
    NoInjuryAt(u, i);
    var k := if i < |u| && u[i] == 'T' then 1 else 0;
    Mismatch(u, i, "THEFT", k);
    var h := if i < |u| && u[i] == 'S' then 1 else 0;
    Mismatch(u, i, "STOLEN", h);
  }

  /** `FIRE` followed by blanks and `DEPARTMENT` is the name of a form section,
      not a fire. */
  lemma FireDepartmentIsNotFire()
    ensures DetermineClaimType("FIRE DEPARTMENT") == NonInjury
  {
    var u := Upper("FIRE DEPARTMENT");
    assert u == "FIRE DEPARTMENT";
    forall i | 0 <= i <= |u| ensures !InjuryAt(u, i) && !TheftAt(u, i) && !FireAt(u, i) {
      NothingInFireDepartment(u, i);
    }
  }

  /** No claim-type pattern matches anywhere in `FIRE DEPARTMENT`. */
  lemma NothingInFireDepartment(u: string, i: nat)
    requires u == "FIRE DEPARTMENT" && i <= |u|
    ensures !InjuryAt(u, i) && !TheftAt(u, i) && !FireAt(u, i)
  {
    NoInjuryAt(u, i);
    var k := if i < |u| && u[i] == 'T' then 1 else 0;
    Mismatch(u, i, "THEFT", k);
    Mismatch(u, i, "STOLEN", 0);
    if i == 0 {
      assert LabelAt(u, 0, "FIRE DEPARTMENT", false);
    } else {
      Mismatch(u, i, "FIRE", 0);
    }
  }
}

=== FILE: numbers.dfy ===
/** Decimal numerals: reading a run of digits (`int(...)` after the thousands
    separators are removed) and Python's `format(n, ',')` thousands grouping,
    with the round trip between them. */
module Numbers {
  import opened Text

  predicate AllDigits(s: string) {
    forall i :: 0 <= i < |s| ==> IsDigit(s[i])
  }

  function DigitValue(c: char): (d: nat)
    requires IsDigit(c)
    ensures d < 10
  {
    c as int - '0' as int
  }

  function DigitChar(d: nat): (c: char)
    requires d < 10
    ensures IsDigit(c) && DigitValue(c) == d
  {
    ('0' as int + d) as char
  }

  /** `int(s)` for a string of ASCII digits. */
  function ValueOf(s: string): nat
    requires AllDigits(s)
  {
    if |s| == 0 then 0 else 10 * ValueOf(s[..|s| - 1]) + DigitValue(s[|s| - 1])
  }

  /** `s.replace(',', '')` */
  function RemoveCommas(s: string): (r: string)
    ensures forall i :: 0 <= i < |r| ==> r[i] != ','
  {
    if |s| == 0 then ""
    else (if s[0] == ',' then "" else [s[0]]) + RemoveCommas(s[1..])
  }

  lemma {:induction false} RemoveCommasAppend(a: string, b: string)
    ensures RemoveCommas(a + b) == RemoveCommas(a) + RemoveCommas(b)
    decreases |a|
  {
    if |a| == 0 {
      assert a + b == b;
    } else {
      assert (a + b)[1..] == a[1..] + b;
      RemoveCommasAppend(a[1..], b);
    }
  }

  lemma {:induction false} RemoveCommasOfDigits(s: string)
    requires AllDigits(s)
    ensures RemoveCommas(s) == s
    decreases |s|
  {
    if |s| > 0 {
      RemoveCommasOfDigits(s[1..]);
    }
  }

  /** `str(n)` */
  function Decimal(n: nat): (s: string)
    ensures |s| > 0 && AllDigits(s)
    ensures ValueOf(s) == n
    ensures |s| > 1 ==> s[0] != '0'
  {
    if n < 10 then [DigitChar(n)]
    else
      var s := Decimal(n / 10) + [DigitChar(n % 10)];
      assert s[..|s| - 1] == Decimal(n / 10);
      s
  }

  /** The three zero-padded digits of a thousands group. */
  function Pad3(m: nat): (s: string)
    requires m < 1000
    ensures |s| == 3 && AllDigits(s)
  {
    [DigitChar(m / 100), DigitChar(m / 10 % 10), DigitChar(m % 10)]
  }

  /** Appending a three-digit group multiplies by a thousand and adds the group. */
  lemma ValueOfPad3(x: string, m: nat)
    requires AllDigits(x) && m < 1000
    ensures AllDigits(x + Pad3(m)) && ValueOf(x + Pad3(m)) == 1000 * ValueOf(x) + m
  {
    var p := Pad3(m);
    var s := x + p;
    var v := ValueOf(x);
    var a, b, c := m / 100, m / 10 % 10, m % 10;
    assert s[..|s| - 1] == x + p[..2];
    assert (x + p[..2])[..|x| + 1] == x + p[..1];
    assert (x + p[..1])[..|x|] == x;
    assert ValueOf(x + p[..1]) == 10 * v + a;
    assert ValueOf(x + p[..2]) == 10 * (10 * v + a) + b;
    assert ValueOf(s) == 10 * (10 * (10 * v + a) + b) + c;
    assert m == 100 * a + 10 * b + c by {
      assert m == 10 * (m / 10) + c;
      assert m / 10 == 10 * (m / 10 / 10) + b;
      assert m / 10 / 10 == a;
    }
  }

  /** One thousands group as it is written: a comma and three digits. */
  predicate IsGroupAt(s: string, i: nat) {
    i + 4 <= |s| && s[i] == ',' && IsDigit(s[i + 1]) && IsDigit(s[i + 2]) && IsDigit(s[i + 3])
  }

  /** `s` is a (possibly empty) sequence of `,ddd` groups: the shape `(?:,\d{3})*` matches. */
  predicate IsGroups(s: string)
    decreases |s|
  {
    |s| == 0 || (IsGroupAt(s, 0) && IsGroups(s[4..]))
  }

  lemma {:induction false} IsGroupsAppend(a: string, b: string)
    requires IsGroups(a) && IsGroups(b)
    ensures IsGroups(a + b)
    decreases |a|
  {
    if |a| == 0 {
      assert a + b == b;
    } else {
      assert (a + b)[4..] == a[4..] + b;
      IsGroupsAppend(a[4..], b);
    }
  }

  /** The leading digits of `format(n, ',')`: the part before the first comma. */
  function Leading(n: nat): nat
    decreases n
  {
    if n < 1000 then n else Leading(n / 1000)
  }

  /** The `,ddd` groups that follow the leading digits. */
  function Groups(n: nat): (s: string)
    ensures IsGroups(s)
    ensures |s| > 0 ==> s[0] == ','
    decreases n
  {
    if n < 1000 then ""
    else
      var g := [','] + Pad3(n % 1000);
      assert IsGroups(g) by { assert g[4..] == ""; }
      IsGroupsAppend(Groups(n / 1000), g);
      Groups(n / 1000) + g
  }

  /** Python's `format(n, ',')` for a non-negative integer. */
  function FormatThousands(n: nat): (s: string)
    ensures |s| > 0 && IsDigit(s[0]) && NumeralChars(s)
  {
    var d := Decimal(Leading(n));
    var g := Groups(n);
    var s := d + g;
    forall i | 0 <= i < |s| ensures IsDigit(s[i]) || s[i] == ',' {
      if i >= |d| { GroupsChars(g, i - |d|); }
    }
    s
  }

  /** Where `format(n, ',')` puts its commas: one to three leading digits, with
      no leading zero unless the whole numeral is `0`, then nothing but `,ddd`
      groups. */
  predicate GroupedShape(s: string) {
    exists k ::
      && 1 <= k <= 3 && k <= |s| && AllDigits(s[..k])
      && ((k > 1 || k < |s|) ==> s[0] != '0')
      && IsGroups(s[k..])
  }

  lemma FormatThousandsShape(n: nat)
    ensures GroupedShape(FormatThousands(n))
  {
    var d := Decimal(Leading(n));
    var g := Groups(n);
    var s := FormatThousands(n);
    assert s == d + g;
    LeadingBounds(n);
    DecimalShort(Leading(n));
    if |g| > 0 {
      DecimalPositive(Leading(n));
    }
    assert s[..|d|] == d && s[|d|..] == g;
    assert AllDigits(s[..|d|]) && IsGroups(s[|d|..]);
  }

  /** The leading part has at most three digits, and is not zero when groups follow. */
  lemma {:induction false} LeadingBounds(n: nat)
    ensures Leading(n) < 1000
    ensures |Groups(n)| > 0 ==> Leading(n) >= 1
    decreases n
  {
    if n >= 1000 {
      LeadingBounds(n / 1000);
    }
  }

  lemma {:induction false} DecimalShort(m: nat)
    requires m < 1000
    ensures |Decimal(m)| <= 3
  {
    if m >= 10 {
      if m >= 100 {
        assert |Decimal(m / 10 / 10)| == 1;
      }
    }
  }

  lemma DecimalPositive(m: nat)
    requires m >= 1
    ensures Decimal(m)[0] != '0'
  {
    if m < 10 {
      assert DigitValue(Decimal(m)[0]) == m;
    }
  }

  /** Only digits and commas: what the grouped-numeral pattern can capture. */
  predicate NumeralChars(s: string) {
    forall i :: 0 <= i < |s| ==> IsDigit(s[i]) || s[i] == ','
  }

  /** Python's `format(n, ',')` for any integer: the sign, then the grouped magnitude. */
  function FormatInt(n: int): (r: string)
    ensures |r| > 0 && (r[0] == '-' <==> n < 0)
  {
    if n < 0 then "-" + FormatThousands(-n) else FormatThousands(n)
  }

  /** Read a grouped numeral back: drop the separators and take the digits' value. */
  function ParseGrouped(s: string): nat
    requires NumeralChars(s)
  {
    var d := RemoveCommas(s);
    assert AllDigits(d) by { RemoveCommasKeepsDigits(s); }
    ValueOf(d)
  }

  lemma {:induction false} RemoveCommasKeepsDigits(s: string)
    requires NumeralChars(s)
    ensures AllDigits(RemoveCommas(s))
    decreases |s|
  {
    if |s| > 0 {
      RemoveCommasKeepsDigits(s[1..]);
    }
  }

  lemma {:induction false} GroupsChars(g: string, i: nat)
    requires IsGroups(g) && i < |g|
    ensures IsDigit(g[i]) || g[i] == ','
    decreases |g|
  {
    if i >= 4 {
      GroupsChars(g[4..], i - 4);
    }
  }

  /** Reading back `format(n, ',')` gives `n`: the separators carry no value. */
  lemma {:induction false} ParseFormatRoundTrip(n: nat)
    ensures ParseGrouped(FormatThousands(n)) == n
    decreases n
  {
    if n < 1000 {
      assert FormatThousands(n) == Decimal(n);
      RemoveCommasOfDigits(Decimal(n));
    } else {
      var m := n / 1000;
      var x := RemoveCommas(FormatThousands(m));
      RemoveCommasKeepsDigits(FormatThousands(m));
      ParseFormatRoundTrip(m);
      assert ValueOf(x) == m;
      StripGroup(n);
      ValueOfPad3(x, n % 1000);
      assert ParseGrouped(FormatThousands(n)) == ValueOf(x + Pad3(n % 1000));
      assert n == 1000 * m + n % 1000;
    }
  }

  /** The signed form: an optional minus sign, then the magnitude's grouped
      numeral, which has the `,ddd` shape and reads back as the magnitude. */
  lemma FormatIntReadsBack(n: int)
    ensures var q := FormatThousands(if n < 0 then -n else n);
      && FormatInt(n) == (if n < 0 then "-" else "") + q
      && GroupedShape(q) && ParseGrouped(q) == (if n < 0 then -n else n)
  {
    var m := if n < 0 then -n else n;
    ParseFormatRoundTrip(m);
    FormatThousandsShape(m);
  }

  /** Removing the separators from `format(n, ',')` leaves the separators of
      `format(n // 1000, ',')` removed, followed by the last group's digits. */
  lemma StripGroup(n: nat)
    requires n >= 1000
    ensures RemoveCommas(FormatThousands(n)) == RemoveCommas(FormatThousands(n / 1000)) + Pad3(n % 1000)
  {
    var m := n / 1000;
    var p := Pad3(n % 1000);
    assert FormatThousands(n) == FormatThousands(m) + [','] + p;
    RemoveCommasAppend(FormatThousands(m) + [','], p);
    RemoveCommasAppend(FormatThousands(m), [',']);
    RemoveCommasOfDigits(p);
    assert RemoveCommas([',']) == "";
  }
}

=== FILE: options.dfy ===
/** The Some/None datatype standing in for Python's `None`-or-value results. */
module Options {

  datatype Option<+T> = None | Some(value: T) {

    /** Returns the value held by Some, or `default` for None. */
    function GetOr(default: T): T {
      match this
      case Some(v) => v
      case None => default
    }
  }
}

=== FILE: patterns.dfy ===
/** Hand-written matchers for the fixed regular expressions of llm_extractor.py.
    Each `...At(t, i)` says what `re` finds when it tries the pattern at start
    index `i`: the bounds of capture group 1, or None. Where the pattern could
    backtrack, the comment on the matcher says why the path taken is the one
    Python's engine settles on first. */
module Patterns {
  import opened Options
  import opened Text
  import opened Numbers

  /** The bounds of a capture group in the searched text. */
  datatype Span = Span(lo: nat, hi: nat)

  predicate Within(s: Span, t: string) {
    s.lo <= s.hi <= |t|
  }

  /** The literal `l` occurs at `i`; with `fold` the comparison ignores ASCII case. */
  predicate LabelAt(t: string, i: nat, l: string, fold: bool) {
    && i + |l| <= |t|
    && forall k :: 0 <= k < |l| ==> if fold then FoldEq(t[i + k], l[k]) else t[i + k] == l[k]
  }

  /** A literal occurs wherever a longer literal that starts with it occurs. */
  lemma LabelPrefix(t: string, i: nat, l: string, m: string, fold: bool)
    requires LabelAt(t, i, l, fold) && |m| <= |l| && l[..|m|] == m
    ensures LabelAt(t, i, m, fold)
  {
    forall k | 0 <= k < |m| ensures m[k] == l[k] {
      assert m[k] == l[..|m|][k];
    }
  }

  /** A literal at the head of a suffix occurs there, in either comparison. */
  lemma LabelAtSuffix(t: string, p: nat, l: string)
    requires p <= |t| && |l| <= |t[p..]| && t[p..][..|l|] == l
    ensures LabelAt(t, p, l, true) && LabelAt(t, p, l, false)
  {
    forall k | 0 <= k < |l| ensures t[p + k] == l[k] {
      assert t[p + k] == t[p..][..|l|][k];
    }
  }

  /** The end of the longest run of `cls` characters starting at `p`: what a
      greedy `cls*` consumes. */
  function RunEnd(t: string, p: nat, cls: char -> bool): (q: nat)
    requires p <= |t|
    ensures p <= q <= |t|
    ensures forall k :: p <= k < q ==> cls(t[k])
    ensures q == |t| || !cls(t[q])
    decreases |t| - p
  {
    if p < |t| && cls(t[p]) then RunEnd(t, p + 1, cls) else p
  }

  /** A run of `cls` from `p` to `q` with no `cls` character at `q` is exactly the greedy run. */
  lemma {:induction false} RunEndOver(t: string, p: nat, q: nat, cls: char -> bool)
    requires p <= q <= |t|
    requires forall k :: p <= k < q ==> cls(t[k])
    requires q == |t| || !cls(t[q])
    ensures RunEnd(t, p, cls) == q
    decreases q - p
  {
    if p < q {
      RunEndOver(t, p + 1, q, cls);
    }
  }

  /** `$` without MULTILINE: the end of the text, or just before a final newline. */
  predicate AtEnd(t: string, h: nat) {
    h == |t| || (h + 1 == |t| && t[h] == '\n')
  }

  /** `[:\-]` */
  predicate IsSeparator(c: char) { c == ':' || c == '-' }

  /** Only whitespace from `p` up to `q`. */
  predicate Blanks(t: string, p: nat, q: nat) {
    p <= q <= |t| && forall k :: p <= k < q ==> IsSpace(t[k])
  }

  /** What `\s*[:\-]?\s*` can span from `p` to `q`: blanks up to `w`, then
      either nothing more or one separator at `w` and blanks after it. */
  predicate SeparatorGap(t: string, p: nat, q: nat) {
    exists w :: p <= w <= q <= |t| && Blanks(t, p, w) && (w == q || (w < q && IsSeparator(t[w]) && Blanks(t, w + 1, q)))
  }

  lemma BlanksGap(t: string, p: nat, q: nat)
    requires Blanks(t, p, q)
    ensures SeparatorGap(t, p, q)
  {
    assert Blanks(t, p, q) && q == q;
  }

  /** Blanks, a separator at `w`, then blanks. */
  lemma SeparatorThenBlanksGap(t: string, p: nat, w: nat, q: nat)
    requires Blanks(t, p, w) && w < |t| && IsSeparator(t[w]) && Blanks(t, w + 1, q)
    ensures SeparatorGap(t, p, q)
  {
    assert Blanks(t, p, w) && w < q && IsSeparator(t[w]) && Blanks(t, w + 1, q);
  }

  /** Blanks in front of a gap leave a gap. */
  lemma BlanksBeforeGap(t: string, d: nat, e: nat, q: nat)
    requires Blanks(t, d, e) && SeparatorGap(t, e, q)
    ensures SeparatorGap(t, d, q)
  {
    var w :| e <= w <= q <= |t| && Blanks(t, e, w) && (w == q || (w < q && IsSeparator(t[w]) && Blanks(t, w + 1, q)));
    assert Blanks(t, d, w);
  }

  /** The greedy `\s*[:\-]?\s*` from `p`, where it spans a gap to. */
  lemma GreedyGap(t: string, p: nat)
    requires p <= |t|
    ensures var w := RunEnd(t, p, IsSpace);
      SeparatorGap(t, p, w)
      && (w < |t| && IsSeparator(t[w]) ==> SeparatorGap(t, p, RunEnd(t, w + 1, IsSpace)))
  {
    var w := RunEnd(t, p, IsSpace);
    BlanksGap(t, p, w);
    if w < |t| && IsSeparator(t[w]) {
      SeparatorThenBlanksGap(t, p, w, RunEnd(t, w + 1, IsSpace));
    }
  }

  /** `re.search`: the match at the first start index, from `from` on, where `at` matches. */
  function Search(t: string, from: nat, at: nat -> Option<Span>): (r: Option<Span>)
    ensures r.Some? ==> exists i :: from <= i <= |t| && at(i) == r && forall j :: from <= j < i ==> at(j).None?
    ensures r.None? ==> forall i :: from <= i <= |t| ==> at(i).None?
    decreases |t| + 1 - from
  {
    if from > |t| then None
    else if at(from).Some? then at(from)
    else Search(t, from + 1, at)
  }

  /** The search returns the match at `p` when no earlier start index matches. */
  lemma SearchFirst(t: string, from: nat, p: nat, at: nat -> Option<Span>)
    requires from <= p <= |t| && at(p).Some?
    requires forall j :: from <= j < p ==> at(j).None?
    ensures Search(t, from, at) == at(p)
  {
  }

  // ---------------------------------------------------------------------------
  // POLICY NUMBER\s*[:\-]?\s*([\w\-]+)          (IGNORECASE)

  const PolicyLabel := "POLICY NUMBER"

  /** `[\w\-]` */
  predicate IsTokenChar(c: char) { IsWordChar(c) || c == '-' }

  /** A non-empty greedy `[\w\-]+` run at `g`. */
  function TokenAt(t: string, g: nat): (r: Option<Span>)
    requires g <= |t|
    ensures r.Some? ==> r.value.lo == g < r.value.hi <= |t|
    ensures r.Some? ==> forall k :: g <= k < r.value.hi ==> IsTokenChar(t[k])
    ensures r.Some? ==> r.value.hi == |t| || !IsTokenChar(t[r.value.hi])
  {
    var e := RunEnd(t, g, IsTokenChar);
    if e > g then Some(Span(g, e)) else None
  }

  /** The first path takes the separator after the longest blank run, skips the
      blanks after it and needs a token there. Shorter blank runs leave a blank
      where the token must start, so the only other path that can succeed skips
      the separator, and then the token starts at the separator itself (a `-`). */
  function PolicyNumberAt(t: string, i: nat): (r: Option<Span>)
    ensures r.Some? ==> Within(r.value, t) && LabelAt(t, i, PolicyLabel, true)
    ensures r.Some? ==> r.value.lo < r.value.hi && forall k :: r.value.lo <= k < r.value.hi ==> IsTokenChar(t[k])
    ensures r.Some? ==> r.value.hi == |t| || !IsTokenChar(t[r.value.hi])
    ensures r.Some? ==> SeparatorGap(t, i + |PolicyLabel|, r.value.lo)
  {
    if !LabelAt(t, i, PolicyLabel, true) then None
    else
      var p := i + |PolicyLabel|;
      var w := RunEnd(t, p, IsSpace);
      var taken := if w < |t| && IsSeparator(t[w]) then TokenAt(t, RunEnd(t, w + 1, IsSpace)) else None;
      GreedyGap(t, p);
      if taken.Some? then taken else TokenAt(t, w)
  }

  // ---------------------------------------------------------------------------
  // NAME OF INSURED\s*\([^)]+\)\s*[:\-]?\s*([A-Za-z][A-Za-z ]+?)(?:\s{2,}|\n|$)   (IGNORECASE)

  const NameLabel := "NAME OF INSURED"

  /** `[A-Za-z ]` (IGNORECASE adds nothing on ASCII) */
  predicate IsNameChar(c: char) { IsAsciiLetter(c) || c == ' ' }

  predicate NotCloseParen(c: char) { c != ')' }

  /** What lies between the label at `i` and a name at `lo`: `\s*\(`, with the
      `(` at `a`, at least one character other than `)`, the first `)` at `b`,
      then `\s*[:\-]?\s*`. */
  predicate NameLeadIn(t: string, i: nat, a: nat, b: nat, lo: nat) {
    && Blanks(t, i + |NameLabel|, a) && a + 1 < b < |t|
    && t[a] == '(' && t[b] == ')'
    && (forall k :: a < k < b ==> t[k] != ')')
    && SeparatorGap(t, b + 1, lo)
  }

  /** `(?:\s{2,}|\n|$)` at `h` */
  predicate NameStop(t: string, h: nat) {
    || (h + 1 < |t| && IsSpace(t[h]) && IsSpace(t[h + 1]))
    || (h < |t| && t[h] == '\n')
    || AtEnd(t, h)
  }

  /** The lazy `[A-Za-z ]+?`: the shortest extension, up to `h` and beyond, that
      is followed by a stop. */
  function NameEnd(t: string, g: nat, h: nat): (r: Option<Span>)
    requires g < h
    ensures r.Some? ==> r.value.lo == g && h <= r.value.hi <= |t| && NameStop(t, r.value.hi)
    ensures r.Some? ==> forall k :: h - 1 <= k < r.value.hi ==> IsNameChar(t[k])
    decreases |t| + 1 - h
  {
    if h > |t| || !IsNameChar(t[h - 1]) then None
    else if NameStop(t, h) then Some(Span(g, h))
    else NameEnd(t, g, h + 1)
  }

  /** After the `)` at `b`: the group must start with a letter, which neither a
      blank nor a separator is, so the only start worth trying is the one after
      the longest blanks and optional separator; from there only the lazy
      group's length varies. */
  function NameAfterParen(t: string, b: nat): (r: Option<Span>)
    requires b < |t|
    ensures r.Some? ==> Within(r.value, t) && SeparatorGap(t, b + 1, r.value.lo)
    ensures r.Some? ==> r.value.hi - r.value.lo >= 2 && IsAsciiLetter(t[r.value.lo])
    ensures r.Some? ==> (forall k :: r.value.lo <= k < r.value.hi ==> IsNameChar(t[k])) && NameStop(t, r.value.hi)
  {
    var w := RunEnd(t, b + 1, IsSpace);
    var g := if w < |t| && IsSeparator(t[w]) then RunEnd(t, w + 1, IsSpace) else w;
    GreedyGap(t, b + 1);
    if g < |t| && IsAsciiLetter(t[g]) then NameEnd(t, g, g + 2) else None
  }

  /** The parenthesised part is forced: `[^)]+` stops at the first `)`. */
  function NameAt(t: string, i: nat): (r: Option<Span>)
    ensures r.Some? ==> Within(r.value, t) && LabelAt(t, i, NameLabel, true)
    ensures r.Some? ==> r.value.hi - r.value.lo >= 2 && IsAsciiLetter(t[r.value.lo])
    ensures r.Some? ==> (forall k :: r.value.lo <= k < r.value.hi ==> IsNameChar(t[k])) && NameStop(t, r.value.hi)
    ensures r.Some? ==> exists a, b :: NameLeadIn(t, i, a, b, r.value.lo)
  {
    if !LabelAt(t, i, NameLabel, true) then None
    else
      var a := RunEnd(t, i + |NameLabel|, IsSpace);
      if !(a < |t| && t[a] == '(') then None
      else
        var b := RunEnd(t, a + 1, NotCloseParen);
        if !(a + 1 < b < |t|) then None
        else
          var r := NameAfterParen(t, b);
          assert r.Some? ==> NameLeadIn(t, i, a, b, r.value.lo);
          r
  }

  // ---------------------------------------------------------------------------
  // DATE OF LOSS[^\n]*?(\d{2}/\d{2}/\d{4})     (IGNORECASE)

  const DateLabel := "DATE OF LOSS"

  /** `\d{2}/\d{2}/\d{4}` at `j` */
  predicate DateShapeAt(t: string, j: nat) {
    && j + 10 <= |t|
    && IsDigit(t[j]) && IsDigit(t[j + 1]) && t[j + 2] == '/'
    && IsDigit(t[j + 3]) && IsDigit(t[j + 4]) && t[j + 5] == '/'
    && IsDigit(t[j + 6]) && IsDigit(t[j + 7]) && IsDigit(t[j + 8]) && IsDigit(t[j + 9])
  }

  /** The lazy `[^\n]*?`: the first date at or after `j` on the same line. */
  function DateFrom(t: string, j: nat): (r: Option<Span>)
    requires j <= |t|
    ensures r.Some? ==> j <= r.value.lo && r.value.hi == r.value.lo + 10 && DateShapeAt(t, r.value.lo)
    ensures r.Some? ==> forall k :: j <= k < r.value.lo ==> t[k] != '\n' && !DateShapeAt(t, k)
    ensures r.None? ==> forall k :: j <= k <= |t| && (forall h :: j <= h < k ==> t[h] != '\n') ==> !DateShapeAt(t, k)
    decreases |t| - j
  {
    if DateShapeAt(t, j) then Some(Span(j, j + 10))
    else if j < |t| && t[j] != '\n' then DateFrom(t, j + 1)
    else None
  }

  /** A date at `lo` is the first on the line that the label at `i` opens. */
  predicate FirstDateOnLine(t: string, i: nat, lo: nat) {
    && LabelAt(t, i, DateLabel, true)
    && i + |DateLabel| <= lo && DateShapeAt(t, lo)
    && forall k :: i + |DateLabel| <= k < lo ==> t[k] != '\n' && !DateShapeAt(t, k)
  }

  function DateAt(t: string, i: nat): (r: Option<Span>)
    ensures r.Some? ==> Within(r.value, t) && LabelAt(t, i, DateLabel, true)
    ensures r.Some? ==> r.value.hi == r.value.lo + 10 && DateShapeAt(t, r.value.lo)
    ensures r.Some? ==> FirstDateOnLine(t, i, r.value.lo)
  {
    if !LabelAt(t, i, DateLabel, true) then None else DateFrom(t, i + |DateLabel|)
  }

  // ---------------------------------------------------------------------------
  // CITY,\s*STATE(?:,\s*ZIP)?\s*[:\-]?\s*([A-Za-z\s,]+?)(?:\s+\d{5}|\n[A-Z]|\n\n|$)   (IGNORECASE)
  //
  // Here backtracking changes the answer (a blank given back to the group can
  // end it early, and a failed ZIP branch retries with ", ZIP" inside the
  // group), so the matcher tries the alternatives in the engine's order.

  /** `[A-Za-z\s,]` */
  predicate IsPlaceChar(c: char) { IsAsciiLetter(c) || IsSpace(c) || c == ',' }

  predicate FiveDigitsAt(t: string, p: nat) {
    p + 5 <= |t| && forall k :: p <= k < p + 5 ==> IsDigit(t[k])
  }

  /** `(?:\s+\d{5}|\n[A-Z]|\n\n|$)` at `h`; IGNORECASE lets `[A-Z]` take any letter. */
  predicate PlaceStop(t: string, h: nat) {
    || (h < |t| && IsSpace(t[h]) && FiveDigitsAt(t, RunEnd(t, h, IsSpace)))
    || (h + 1 < |t| && t[h] == '\n' && IsAsciiLetter(t[h + 1]))
    || (h + 1 < |t| && t[h] == '\n' && t[h + 1] == '\n')
    || AtEnd(t, h)
  }

  /** The lazy group starting at `g`, tried with end `h` and then longer. */
  function PlaceEnd(t: string, g: nat, h: nat): (r: Option<Span>)
    requires g < h
    ensures r.Some? ==> r.value.lo == g && h <= r.value.hi <= |t| && PlaceStop(t, r.value.hi)
    ensures r.Some? ==> forall k :: h - 1 <= k < r.value.hi ==> IsPlaceChar(t[k])
    decreases |t| + 1 - h
  {
    if h > |t| || !IsPlaceChar(t[h - 1]) then None
    else if PlaceStop(t, h) then Some(Span(g, h))
    else PlaceEnd(t, g, h + 1)
  }

  /** The second `\s*`, ending at `g` and then one shorter, down to `f`. */
  function PlaceAfterBlanks(t: string, f: nat, g: nat): (r: Option<Span>)
    requires f <= g <= |t| && Blanks(t, f, g)
    ensures r.Some? ==> Blanks(t, f, r.value.lo)
    ensures r.Some? ==> f <= r.value.lo <= r.value.hi <= |t|
    ensures r.Some? ==> r.value.lo < r.value.hi && PlaceStop(t, r.value.hi)
    ensures r.Some? ==> forall k :: r.value.lo <= k < r.value.hi ==> IsPlaceChar(t[k])
    decreases g
  {
    var r := PlaceEnd(t, g, g + 1);
    if r.Some? || g == f then r else PlaceAfterBlanks(t, f, g - 1)
  }

  /** `[:\-]?` at `e`: with the separator first, then without. */
  function PlaceAfterSeparator(t: string, e: nat): (r: Option<Span>)
    requires e <= |t|
    ensures r.Some? ==> e <= r.value.lo <= r.value.hi <= |t| && SeparatorGap(t, e, r.value.lo)
    ensures r.Some? ==> r.value.lo < r.value.hi && PlaceStop(t, r.value.hi)
    ensures r.Some? ==> forall k :: r.value.lo <= k < r.value.hi ==> IsPlaceChar(t[k])
  {
    var taken :=
      if e < |t| && IsSeparator(t[e]) then PlaceAfterBlanks(t, e + 1, RunEnd(t, e + 1, IsSpace)) else None;
    assert taken.Some? ==> SeparatorGap(t, e, taken.value.lo) by {
      if taken.Some? { SeparatorThenBlanksGap(t, e, e, taken.value.lo); }
    }
    var r := if taken.Some? then taken else PlaceAfterBlanks(t, e, RunEnd(t, e, IsSpace));
    assert r.Some? ==> SeparatorGap(t, e, r.value.lo) by {
      if r.Some? && taken.None? { BlanksGap(t, e, r.value.lo); }
    }
    r
  }

  /** The first `\s*`, ending at `e` and then one shorter, down to `d`. */
  function PlaceFrom(t: string, d: nat, e: nat): (r: Option<Span>)
    requires d <= e <= |t| && Blanks(t, d, e)
    ensures r.Some? ==> d <= r.value.lo <= r.value.hi <= |t| && SeparatorGap(t, d, r.value.lo)
    ensures r.Some? ==> r.value.lo < r.value.hi && PlaceStop(t, r.value.hi)
    ensures r.Some? ==> forall k :: r.value.lo <= k < r.value.hi ==> IsPlaceChar(t[k])
    decreases e
  {
    var r := PlaceAfterSeparator(t, e);
    if r.Some? then
      BlanksBeforeGap(t, d, e, r.value.lo);
      r
    else if e == d then r
    else PlaceFrom(t, d, e - 1)
  }

  /** `,\s*ZIP` after the `STATE` at `b`, with `ZIP` at `z`, then `\s*[:\-]?\s*` up to `lo`. */
  predicate ZipLeadIn(t: string, b: nat, z: nat, lo: nat) {
    && b + 5 < z <= |t| && t[b + 5] == ',' && Blanks(t, b + 6, z)
    && LabelAt(t, z, "ZIP", true) && SeparatorGap(t, z + 3, lo)
  }

  /** What lies between the `STATE` at `b` and a place at `lo`: optionally
      `,\s*ZIP`, then `\s*[:\-]?\s*`. */
  predicate AfterStateLeadIn(t: string, b: nat, lo: nat) {
    SeparatorGap(t, b + 5, lo) || exists z :: b < z <= |t| && ZipLeadIn(t, b, z, lo)
  }

  /** What lies between the `CITY,` at `i` and a place at `lo`: blanks, then
      `STATE` at `b` and what may follow it. */
  predicate StateLeadIn(t: string, i: nat, b: nat, lo: nat) {
    Blanks(t, i + 5, b) && LabelAt(t, b, "STATE", true) && AfterStateLeadIn(t, b, lo)
  }

  /** The rest of the location pattern after the `STATE` at `b`: the `ZIP`
      branch first, then without it. */
  function PlaceAfterState(t: string, b: nat): (r: Option<Span>)
    requires b + 5 <= |t|
    ensures r.Some? ==> Within(r.value, t) && AfterStateLeadIn(t, b, r.value.lo)
    ensures r.Some? ==> r.value.lo < r.value.hi && PlaceStop(t, r.value.hi)
    ensures r.Some? ==> forall k :: r.value.lo <= k < r.value.hi ==> IsPlaceChar(t[k])
  {
    var c := b + 5;
    var z := if c < |t| then RunEnd(t, c + 1, IsSpace) else c;
    var hasZip := c < |t| && t[c] == ',' && LabelAt(t, z, "ZIP", true);
    var withZip := if hasZip then PlaceFrom(t, z + 3, RunEnd(t, z + 3, IsSpace)) else None;
    assert withZip.Some? ==> ZipLeadIn(t, b, z, withZip.value.lo);
    if withZip.Some? then withZip else PlaceFrom(t, c, RunEnd(t, c, IsSpace))
  }

  function LocationAt(t: string, i: nat): (r: Option<Span>)
    ensures r.Some? ==> Within(r.value, t) && LabelAt(t, i, "CITY,", true)
    ensures r.Some? ==> exists b :: StateLeadIn(t, i, b, r.value.lo)
    ensures r.Some? ==> r.value.lo < r.value.hi && PlaceStop(t, r.value.hi)
    ensures r.Some? ==> forall k :: r.value.lo <= k < r.value.hi ==> IsPlaceChar(t[k])
  {
    if !LabelAt(t, i, "CITY,", true) then None
    else
      var b := RunEnd(t, i + 5, IsSpace);
      if !LabelAt(t, b, "STATE", true) then None
      else
        var r := PlaceAfterState(t, b);
        assert r.Some? ==> StateLeadIn(t, i, b, r.value.lo);
        r
  }

  // ---------------------------------------------------------------------------
  // DESCRIPTION OF ACCIDENT\s*[:\-]?\s*(.*?)(?=POLICE OR FIRE DEPARTMENT|INSURED VEHICLE|WITNESSES|$)
  //                                                       (IGNORECASE | DOTALL)

  const DescriptionLabel := "DESCRIPTION OF ACCIDENT"

  /** One of the labels that ends the description. */
  predicate SectionAt(t: string, h: nat) {
    || LabelAt(t, h, "POLICE OR FIRE DEPARTMENT", true)
    || LabelAt(t, h, "INSURED VEHICLE", true)
    || LabelAt(t, h, "WITNESSES", true)
  }

  /** The lazy `.*?`: the first index from `h` on where a section label starts or `$` holds. */
  function DescriptionEnd(t: string, h: nat): (e: nat)
    requires h <= |t|
    ensures h <= e <= |t| && (SectionAt(t, e) || AtEnd(t, e))
    ensures forall k :: h <= k < e ==> !SectionAt(t, k) && !AtEnd(t, k)
    decreases |t| - h
  {
    if SectionAt(t, h) || AtEnd(t, h) then h else DescriptionEnd(t, h + 1)
  }

  /** The first index from `h` on where a section label starts is where the lazy group stops. */
  lemma {:induction false} DescriptionEndOver(t: string, h: nat, e: nat)
    requires h <= e <= |t| && SectionAt(t, e)
    requires forall k :: h <= k < e ==> !SectionAt(t, k) && !AtEnd(t, k)
    ensures DescriptionEnd(t, h) == e
    decreases e - h
  {
    if h < e {
      DescriptionEndOver(t, h + 1, e);
    }
  }

  /** The lookahead always succeeds by the end of the text, so the first path, after
      the longest blanks and the separator if there is one, is the match. */
  function DescriptionAt(t: string, i: nat): (r: Option<Span>)
    ensures r.Some? <==> LabelAt(t, i, DescriptionLabel, true)
    ensures r.Some? ==> Within(r.value, t)
  {
    if !LabelAt(t, i, DescriptionLabel, true) then None
    else
      var w := RunEnd(t, i + |DescriptionLabel|, IsSpace);
      var g := if w < |t| && IsSeparator(t[w]) then RunEnd(t, w + 1, IsSpace) else w;
      Some(Span(g, DescriptionEnd(t, g)))
  }

  // ---------------------------------------------------------------------------
  // ESTIMATE AMOUNT\s*[:\-]?\s*\$?(\d+(?:,\d{3})*)       (case-sensitive)

  const AmountLabel := "ESTIMATE AMOUNT"

  /** The greedy `(?:,\d{3})*` from `q`. */
  function GroupsEnd(t: string, q: nat): (e: nat)
    requires q <= |t|
    ensures q <= e <= |t| && IsGroups(t[q..e])
    ensures !IsGroupAt(t, e)
    decreases |t| - q
  {
    if IsGroupAt(t, q) then
      var e := GroupsEnd(t, q + 4);
      assert t[q..e][4..] == t[q + 4..e];
      e
    else q
  }

  /** Groups written out in the text from `q` on, with no further group after
      them, are exactly what the greedy repetition consumes. */
  lemma {:induction false} GroupsEndOver(t: string, q: nat, g: string)
    requires q + |g| <= |t| && t[q..q + |g|] == g && IsGroups(g)
    requires !IsGroupAt(t, q + |g|)
    ensures GroupsEnd(t, q) == q + |g|
    decreases |g|
  {
    if |g| > 0 {
      assert IsGroupAt(g, 0);
      assert t[q..q + 4] == g[..4];
      assert IsGroupAt(t, q);
      assert t[q + 4..q + |g|] == g[4..];
      GroupsEndOver(t, q + 4, g[4..]);
    }
  }

  /** Blanks, a separator and `$` are each optional, and none of them is a digit, so
      the only start for the digits is after all that are present. Nothing follows
      the group, so the greedy repetitions stand. */
  function AmountAt(t: string, i: nat): (r: Option<Span>)
    ensures r.Some? ==> Within(r.value, t) && LabelAt(t, i, AmountLabel, false)
    ensures r.Some? ==> r.value.lo < r.value.hi && IsDigit(t[r.value.lo])
    ensures r.Some? ==> NumeralChars(t[r.value.lo..r.value.hi])
    ensures r.Some? ==> AmountLeadIn(t, i, r.value.lo)
  {
    if !LabelAt(t, i, AmountLabel, false) then None
    else
      var p := i + |AmountLabel|;
      var w := RunEnd(t, p, IsSpace);
      var g := RunEnd(t, if w < |t| && IsSeparator(t[w]) then w + 1 else w, IsSpace);
      var d := if g < |t| && t[g] == '$' then g + 1 else g;
      if d < |t| && IsDigit(t[d]) then
        var e := RunEnd(t, d, IsDigit);
        var q := GroupsEnd(t, e);
        DigitsThenGroups(t, d, e, q);
        AmountGap(t, p);
        AmountLead(t, i, g, d);
        Some(Span(d, q))
      else None
  }

  /** What lies between the label at `i` and a numeral at `lo`: `\s*[:\-]?\s*`,
      then an optional `$`. */
  predicate AmountLeadIn(t: string, i: nat, lo: nat) {
    || SeparatorGap(t, i + |AmountLabel|, lo)
    || (0 < lo <= |t| && t[lo - 1] == '$' && SeparatorGap(t, i + |AmountLabel|, lo - 1))
  }

  /** The blanks and separator that `AmountAt` skips form a gap. */
  lemma AmountGap(t: string, p: nat)
    requires p <= |t|
    ensures var w := RunEnd(t, p, IsSpace);
      SeparatorGap(t, p, RunEnd(t, if w < |t| && IsSeparator(t[w]) then w + 1 else w, IsSpace))
  {
    var w := RunEnd(t, p, IsSpace);
    GreedyGap(t, p);
    if !(w < |t| && IsSeparator(t[w])) {
      RunEndOver(t, w, w, IsSpace);
    }
  }

  lemma AmountLead(t: string, i: nat, g: nat, d: nat)
    requires SeparatorGap(t, i + |AmountLabel|, g)
    requires d == g || (g < |t| && t[g] == '$' && d == g + 1)
    ensures AmountLeadIn(t, i, d)
  {
  }

  /** Digits followed by whole `,ddd` groups hold only digits and commas. */
  lemma DigitsThenGroups(t: string, d: nat, e: nat, q: nat)
    requires d <= e <= q <= |t|
    requires forall k :: d <= k < e ==> IsDigit(t[k])
    requires IsGroups(t[e..q])
    ensures NumeralChars(t[d..q])
  {
    forall k | d <= k < q ensures IsDigit(t[k]) || t[k] == ',' {
      if k >= e {
        GroupsChars(t[e..q], k - e);
      }
    }
  }

  // ---------------------------------------------------------------------------
  // Claim-type patterns, searched in the upper-cased text (no flags).

  /** `\bW\b` for a word `W` of word characters. */
  predicate WordAt(u: string, i: nat, w: string) {
    && LabelAt(u, i, w, false)
    && (i == 0 || !IsWordChar(u[i - 1]))
    && (i + |w| == |u| || !IsWordChar(u[i + |w|]))
  }

  /** `\s+W` at `p`. */
  predicate BlanksThen(u: string, p: nat, w: string)
    requires p <= |u|
  {
    var e := RunEnd(u, p, IsSpace);
    e > p && LabelAt(u, e, w, false)
  }

  /** `(?!NONE)[A-Z]` at `g` */
  predicate LetterNotNone(u: string, g: nat) {
    g < |u| && IsUpperAscii(u[g]) && !LabelAt(u, g, "NONE", false)
  }

  /** `INJURED\s*[:\-]?\s*(?!NONE)[A-Z]` matches at `i`. The letter cannot sit
      among blanks, so it must come after the longest blank run, or after the
      separator that run ends on and the blanks that follow it. */
  predicate InjuredNamed(u: string, i: nat) {
    && LabelAt(u, i, "INJURED", false)
    && var w := RunEnd(u, i + 7, IsSpace);
       || LetterNotNone(u, w)
       || (w < |u| && IsSeparator(u[w]) && LetterNotNone(u, RunEnd(u, w + 1, IsSpace)))
  }

  /** One backtracking path of `INJURED\s*[:\-]?\s*(?!NONE)[A-Z]` at `i`: the first
      blanks end at `e`, the optional separator ends at `f`, the second blanks at `g`. */
  ghost predicate InjuredPath(u: string, i: nat, e: nat, f: nat, g: nat) {
    && LabelAt(u, i, "INJURED", false)
    && i + 7 <= e <= RunEnd(u, i + 7, IsSpace)
    && (f == e || (e < |u| && IsSeparator(u[e]) && f == e + 1))
    && f <= |u|
    && f <= g <= RunEnd(u, f, IsSpace)
    && LetterNotNone(u, g)
  }

  /** A greedy run started inside another run ends where that run ends. */
  lemma RunEndInside(t: string, p: nat, e: nat, cls: char -> bool)
    requires p <= |t| && p <= e <= RunEnd(t, p, cls)
    ensures RunEnd(t, e, cls) == RunEnd(t, p, cls)
  {
  }

  /** The characterisation of `InjuredNamed` is exact: it holds precisely when some
      backtracking path of the pattern succeeds. */
  lemma InjuredNamedExact(u: string, i: nat)
    ensures InjuredNamed(u, i) <==> exists e, f, g :: InjuredPath(u, i, e, f, g)
  {
    if InjuredNamed(u, i) {
      var w := RunEnd(u, i + 7, IsSpace);
      if LetterNotNone(u, w) {
        RunEndInside(u, i + 7, w, IsSpace);
        assert InjuredPath(u, i, w, w, w);
      } else {
        assert InjuredPath(u, i, w, w + 1, RunEnd(u, w + 1, IsSpace));
      }
    }
    forall e, f, g | InjuredPath(u, i, e, f, g) ensures InjuredNamed(u, i) {
      InjuredPathSucceeds(u, i, e, f, g);
    }
  }

  /** Every successful path ends where the characterisation looks. */
  lemma InjuredPathSucceeds(u: string, i: nat, e: nat, f: nat, g: nat)
    requires InjuredPath(u, i, e, f, g)
    ensures InjuredNamed(u, i)
  {
    var w := RunEnd(u, i + 7, IsSpace);
    RunEndInside(u, i + 7, e, IsSpace);
    if f == e {
      assert g == w;
    } else {
      assert e == w;
      var v := RunEnd(u, w + 1, IsSpace);
      assert g == v;
    }
  }

  /** The injury-indicating pattern matches at `i`. Every alternative starts
      with `INJUR`, except `EXTENT OF INJURY`. */
  predicate InjuryAt(u: string, i: nat): (r: bool)
    ensures r ==> LabelAt(u, i, "INJUR", false) || LabelAt(u, i, "EXTENT OF INJURY", false)
  {
    assert LabelAt(u, i, "INJURED", false) ==> LabelAt(u, i, "INJUR", false) by {
      if LabelAt(u, i, "INJURED", false) { LabelPrefix(u, i, "INJURED", "INJUR", false); }
    }
    assert LabelAt(u, i, "INJURY", false) ==> LabelAt(u, i, "INJUR", false) by {
      if LabelAt(u, i, "INJURY", false) { LabelPrefix(u, i, "INJURY", "INJUR", false); }
    }
    || InjuredNamed(u, i)
    || LabelAt(u, i, "EXTENT OF INJURY", false)
    || (LabelAt(u, i, "INJURY", false) && BlanksThen(u, i + 6, "TO"))
    || (LabelAt(u, i, "INJURED", false) && BlanksThen(u, i + 7, "PARTIES"))
  }

  /** `\bTHEFT\b|\bSTOLEN\b` matches at `i`: one of the two words, not inside a
      longer word. */
  predicate TheftAt(u: string, i: nat): (r: bool)
    ensures r ==> LabelAt(u, i, "THEFT", false) || LabelAt(u, i, "STOLEN", false)
    ensures 0 < i <= |u| && IsAsciiLetter(u[i - 1]) ==> !r
  {
    WordAt(u, i, "THEFT") || WordAt(u, i, "STOLEN")
  }

  /** `\bFIRE\b(?!\s+DEPARTMENT)` matches at `i`: the word, not inside a longer
      word, and not naming the fire department. */
  predicate FireAt(u: string, i: nat): (r: bool)
    ensures r ==> LabelAt(u, i, "FIRE", false)
    ensures 0 < i <= |u| && IsAsciiLetter(u[i - 1]) ==> !r
    ensures LabelAt(u, i, "FIRE DEPARTMENT", false) ==> !r
  {
    assert LabelAt(u, i, "FIRE DEPARTMENT", false) ==> BlanksThen(u, i + 4, "DEPARTMENT") by {
      if LabelAt(u, i, "FIRE DEPARTMENT", false) {
        var l := "FIRE DEPARTMENT";
        assert u[i + 4] == l[4] == ' ' && u[i + 5] == l[5] == 'D';
        RunEndOver(u, i + 4, i + 5, IsSpace);
        forall k | 0 <= k < 10 ensures u[i + 5 + k] == "DEPARTMENT"[k] {
          assert u[i + 5 + k] == l[5 + k];
        }
      }
    }
    WordAt(u, i, "FIRE") && !BlanksThen(u, i + 4, "DEPARTMENT")
  }
}

=== FILE: pipeline.dfy ===
/** What the router makes of the fallback extractor's output, and the routing
    of a few typical claims. */
module Pipeline {
  import opened Options
  import opened Text
  import opened Patterns
  import opened Schema
  import opened Router
  import opened Extractor

  /** On the fallback's output the missing list is exactly the fields the
      extractor found nothing for (a zero amount counts as nothing), and the
      claim type, always set, is never among them. */
  lemma FallbackMissingFields(t: string)
    ensures var c := FallbackExtraction(t); var m := FindMissingFields(c);
      && (PolicyNumber in m <==> c.policyNumber.None?)
      && (PolicyholderName in m <==> c.policyholderName.None?)
      && (IncidentDate in m <==> c.incidentDate.None?)
      && (IncidentLocation in m <==> c.incidentLocation.None?)
      && (Description in m <==> c.description.None?)
      && (EstimatedDamage in m <==> c.estimatedDamage.None? || c.estimatedDamage.value == 0)
      && ClaimType !in m
  {
    var c := FallbackExtraction(t);
    assert c.incidentDate.Some? ==> c.incidentDate.value != "";
    MissingMeansAbsent(c);
  }

  /** When every value a record holds is non-empty, "missing" means "absent",
      except that a zero amount is missing too. */
  lemma MissingMeansAbsent(c: ClaimFields)
    requires c.policyNumber.Some? ==> c.policyNumber.value != ""
    requires c.policyholderName.Some? ==> c.policyholderName.value != ""
    requires c.incidentDate.Some? ==> c.incidentDate.value != ""
    requires c.incidentLocation.Some? ==> c.incidentLocation.value != ""
    requires c.description.Some? ==> c.description.value != ""
    requires c.claimType.Some? && c.claimType.value != ""
    ensures var m := FindMissingFields(c);
      && (PolicyNumber in m <==> c.policyNumber.None?)
      && (PolicyholderName in m <==> c.policyholderName.None?)
      && (IncidentDate in m <==> c.incidentDate.None?)
      && (IncidentLocation in m <==> c.incidentLocation.None?)
      && (Description in m <==> c.description.None?)
      && (EstimatedDamage in m <==> c.estimatedDamage.None? || c.estimatedDamage.value == 0)
      && ClaimType !in m
  {
    var m := FindMissingFields(c);
    assert PolicyNumber in m <==> IsMissing(c, PolicyNumber);
    assert PolicyholderName in m <==> IsMissing(c, PolicyholderName);
    assert IncidentDate in m <==> IsMissing(c, IncidentDate);
    assert IncidentLocation in m <==> IsMissing(c, IncidentLocation);
    assert Description in m <==> IsMissing(c, Description);
    assert EstimatedDamage in m <==> IsMissing(c, EstimatedDamage);
    assert ClaimType in m <==> IsMissing(c, ClaimType);
  }

  /** The empty description mentions no fraud keyword. */
  lemma NoDescriptionNoFraud(c: ClaimFields)
    requires c.description.None?
    ensures !FraudSuspected(c)
  {
    assert LoweredDescription(c) == "";
    forall k | 0 <= k < |FraudKeywords| ensures !Contains("", FraudKeywords[k]) {
      assert |FraudKeywords[k]| > 0;
    }
  }

  /** A document without a `DESCRIPTION OF ACCIDENT` label goes to manual review
      with the description reported missing: there is nothing for the fraud rule
      to read, and the completeness rule fires next. */
  lemma NoDescriptionGoesToManualReview(t: string)
    requires forall i :: 0 <= i <= |t| ==> !LabelAt(t, i, DescriptionLabel, true)
    ensures var r := ProcessClaim(FallbackExtraction(t));
      r.recommendedRoute == ManualReview && Description in r.missingFields
  {
    var c := FallbackExtraction(t);
    assert c.description.None?;
    NoDescriptionNoFraud(c);
    assert IsMissing(c, Description);
  }

  /** A fraud keyword anywhere in the description, in any case, sends the claim
      to investigation, whatever else is missing or claimed. */
  lemma FraudKeywordInvestigated(c: ClaimFields, a: string, w: string, b: string, k: nat)
    requires k < |FraudKeywords| && Lower(w) == FraudKeywords[k]
    requires c.description == Some(a + w + b)
    ensures ProcessClaim(c).recommendedRoute == InvestigationFlag
  {
    var d := LoweredDescription(c);
    assert d[|a|..|a| + |w|] == Lower(w);
    assert OccursAt(d, FraudKeywords[k], |a|);
  }

  /** The missing list is a single field exactly when only that field is missing. */
  lemma SingleMissing(c: ClaimFields, f: Field)
    requires IsMissing(c, f)
    requires forall g :: g != f ==> !IsMissing(c, g)
    ensures FindMissingFields(c) == [f]
  {
    var m := FindMissingFields(c);
    assert f in m;
    assert m[0] == f;
  }

  /** A claim complete but for its policy number, with no fraud keyword, is sent
      to manual review naming just that field. */
  lemma OnlyPolicyNumberMissing(c: ClaimFields)
    requires !FraudSuspected(c)
    requires IsMissing(c, PolicyNumber)
    requires forall g :: g != PolicyNumber ==> !IsMissing(c, g)
    ensures ProcessClaim(c).recommendedRoute == ManualReview
    ensures ProcessClaim(c).reasoning == MissingPrefix + "policyNumber"
  {
    SingleMissing(c, PolicyNumber);
    assert FieldNames([PolicyNumber]) == ["policyNumber"];
  }
}

=== FILE: router.dfy ===
/** The rule-based routing decision of claims_router.py: which mandatory fields
    are missing, the five-rule cascade that picks a route, and the assembled result. */
module Router {
  import opened Options
  import opened Text
  import opened Numbers
  import opened Schema

  /** `FRAUD_KEYWORDS` */
  const FraudKeywords: seq<string> := ["fraud", "inconsistent", "staged"]

  /** Damage strictly below this amount is fast-tracked. */
  const FastTrackLimit: int := 25000

  /** How much of the lower-cased description the fraud reasoning quotes. */
  const ExcerptLength: nat := 100

  // The reasoning texts. Dafny spells out the characters of a string literal
  // only when it is shorter than 45 characters, so the three longer texts are
  // each written as two literals.
  const FraudPrefix := "Suspicious keywords " + "detected in description: "
  const MissingPrefix := "Missing mandatory fields: "
  const InjuryReason := "Claim involves injury " + "and requires specialist review"
  const DamagePrefix := "Estimated damage ($"
  const DamageSuffix := ") is below $25,000 threshold"
  const DefaultReason := "Claim requires standard " + "manual review process"

  datatype Route = InvestigationFlag | ManualReview | SpecialistQueue | FastTrack {
    /** The route string the result carries. */
    function Label(): string {
      match this
      case InvestigationFlag => "Investigation Flag"
      case ManualReview => "Manual review"
      case SpecialistQueue => "Specialist Queue"
      case FastTrack => "Fast-track"
    }
  }

  /** The `(route, reasoning)` pair `determine_route` returns. */
  datatype Decision = Decision(route: Route, reasoning: string)

  /** The four-member dictionary `process_claim` returns. */
  datatype ClaimResult = ClaimResult(
    extractedFields: ClaimFields,
    missingFields: seq<Field>,
    recommendedRoute: Route,
    reasoning: string)

  /** Strictly increasing schema positions: schema order, no repeats. */
  predicate InSchemaOrder(fs: seq<Field>) {
    forall i, j :: 0 <= i < j < |fs| ==> Index(fs[i]) < Index(fs[j])
  }

  /** The missing fields among `MandatoryFields[k..]`, in schema order. */
  function MissingFrom(c: ClaimFields, k: nat): (r: seq<Field>)
    requires k <= |MandatoryFields|
    ensures forall f :: f in r <==> k <= Index(f) && IsMissing(c, f)
    ensures InSchemaOrder(r)
    decreases |MandatoryFields| - k
  {
    if k == |MandatoryFields| then []
    else
      var f := MandatoryFields[k];
      var rest := MissingFrom(c, k + 1);
      if IsMissing(c, f) then [f] + rest else rest
  }

  /** `find_missing_fields`: exactly the missing fields, each once, in schema order. */
  function FindMissingFields(c: ClaimFields): (r: seq<Field>)
    ensures forall f :: f in r <==> IsMissing(c, f)
    ensures InSchemaOrder(r)
    ensures r == [] <==> Complete(c)
  {
    var r := MissingFrom(c, 0);
    assert r != [] ==> IsMissing(c, r[0]);
    r
  }

  /** `(fields.get("description") or "").lower()` */
  function LoweredDescription(c: ClaimFields): string {
    Lower(c.description.GetOr(""))
  }

  /** Some fraud keyword occurs in the lower-cased description. */
  predicate FraudSuspected(c: ClaimFields) {
    var d := LoweredDescription(c);
    exists k | 0 <= k < |FraudKeywords| :: Contains(d, FraudKeywords[k])
  }

  /** The damage is known and strictly below the fast-track limit. */
  predicate BelowLimit(v: Option<int>) {
    v.Some? && v.value < FastTrackLimit
  }

  predicate IsInjury(c: ClaimFields) {
    c.claimType == Some("injury")
  }

  function FieldNames(fs: seq<Field>): (r: seq<string>)
    ensures |r| == |fs| && forall i :: 0 <= i < |fs| ==> r[i] == Name(fs[i])
  {
    seq(|fs|, i requires 0 <= i < |fs| => Name(fs[i]))
  }

  /** `determine_route`: the five rules in priority order, the first that fires decides. */
  function DetermineRoute(c: ClaimFields, missing: seq<Field>): (d: Decision)
    ensures d.reasoning != ""
    ensures d.route == InvestigationFlag <==> FraudSuspected(c)
    ensures d.route == SpecialistQueue <==> !FraudSuspected(c) && missing == [] && IsInjury(c)
    ensures d.route == FastTrack <==>
      !FraudSuspected(c) && missing == [] && !IsInjury(c) && BelowLimit(c.estimatedDamage)
    ensures d.route == ManualReview <==>
      !FraudSuspected(c) && (missing != [] || (!IsInjury(c) && !BelowLimit(c.estimatedDamage)))
    ensures FraudSuspected(c) ==>
      && |d.reasoning| >= |FraudPrefix|
      && d.reasoning[..|FraudPrefix|] == FraudPrefix
      && |d.reasoning| == |FraudPrefix| +
        (if |LoweredDescription(c)| <= ExcerptLength then |LoweredDescription(c)| else ExcerptLength)
      && d.reasoning[|FraudPrefix|..] <= LoweredDescription(c)
    ensures !FraudSuspected(c) && missing != [] ==>
      d.reasoning == MissingPrefix + Join(FieldNames(missing), ", ")
  {
    var description := LoweredDescription(c);
    if FraudSuspected(c) then
      Decision(InvestigationFlag, FraudPrefix + Take(description, ExcerptLength))
    else if missing != [] then
      Decision(ManualReview, MissingPrefix + Join(FieldNames(missing), ", "))
    else if IsInjury(c) then
      Decision(SpecialistQueue, InjuryReason)
    else if BelowLimit(c.estimatedDamage) then
      Decision(FastTrack, DamagePrefix + FormatInt(c.estimatedDamage.value) + DamageSuffix)
    else
      Decision(ManualReview, DefaultReason)
  }

  /** `process_claim`: the fields as given, their missing list, and the decision on both. */
  function ProcessClaim(c: ClaimFields): (r: ClaimResult)
    ensures r.extractedFields == c
    ensures r.missingFields == FindMissingFields(c)
    ensures r.recommendedRoute == InvestigationFlag <==> FraudSuspected(c)
    ensures r.recommendedRoute == SpecialistQueue <==> !FraudSuspected(c) && Complete(c) && IsInjury(c)
    ensures r.recommendedRoute == FastTrack <==>
      !FraudSuspected(c) && Complete(c) && !IsInjury(c) && c.estimatedDamage.value < FastTrackLimit
    ensures r.reasoning == DefaultReason <==>
      !FraudSuspected(c) && Complete(c) && !IsInjury(c) && c.estimatedDamage.value >= FastTrackLimit
  {
    var missing := FindMissingFields(c);
    var d := DetermineRoute(c, missing);
    assert d.reasoning == DefaultReason ==> d.route == ManualReview && missing == [] by {
      if !FraudSuspected(c) && missing != [] {
        assert d.reasoning[0] == MissingPrefix[0] == 'M';
        assert DefaultReason[0] == 'C';
      }
    }
    ClaimResult(c, missing, d.route, d.reasoning)
  }

  /** Reads the route back from the opening words of a reasoning text. */
  function RouteNamedBy(reasoning: string): Option<Route> {
    if FraudPrefix <= reasoning then Some(InvestigationFlag)
    else if MissingPrefix <= reasoning then Some(ManualReview)
    else if reasoning == InjuryReason then Some(SpecialistQueue)
    else if DamagePrefix <= reasoning then Some(FastTrack)
    else if reasoning == DefaultReason then Some(ManualReview)
    else None
  }

  /** The reasoning names the rule that fired: the route can be read back from it. */
  lemma ReasoningNamesRoute(c: ClaimFields, missing: seq<Field>)
    ensures var d := DetermineRoute(c, missing); RouteNamedBy(d.reasoning) == Some(d.route)
  {
    var d := DetermineRoute(c, missing);
    assert FraudPrefix[0] == 'S' && MissingPrefix[0] == 'M' && DamagePrefix[0] == 'E';
    assert InjuryReason[0] == 'C' && DefaultReason[0] == 'C' && InjuryReason[6] != DefaultReason[6];
    if !FraudSuspected(c) && missing != [] {
      assert MissingPrefix <= d.reasoning;
    } else if !FraudSuspected(c) && !IsInjury(c) && BelowLimit(c.estimatedDamage) {
      assert DamagePrefix <= d.reasoning;
    }
  }

  lemma NameIsWord(f: Field)
    ensures Name(f) != "" && NoComma(Name(f))
  {
    match f
    case PolicyNumber =>
    case PolicyholderName =>
    case IncidentDate =>
    case IncidentLocation =>
    case Description =>
    case EstimatedDamage =>
    case ClaimType =>
  }

  /** The completeness rule's reasoning determines the missing list it reports. */
  lemma MissingReasoningDetermined(a: seq<Field>, b: seq<Field>)
    requires MissingPrefix + Join(FieldNames(a), ", ") == MissingPrefix + Join(FieldNames(b), ", ")
    ensures a == b
  {
    var na, nb := FieldNames(a), FieldNames(b);
    forall i | 0 <= i < |na| ensures na[i] != "" && NoComma(na[i]) {
      NameIsWord(a[i]);
    }
    forall i | 0 <= i < |nb| ensures nb[i] != "" && NoComma(nb[i]) {
      NameIsWord(b[i]);
    }
    assert Join(na, ", ") == Join(nb, ", ") by {
      var k := |MissingPrefix|;
      assert Join(na, ", ") == (MissingPrefix + Join(na, ", "))[k..];
    }
    JoinCommaInjective(na, nb);
    assert |a| == |b|;
    forall i | 0 <= i < |a| ensures a[i] == b[i] {
      assert Name(a[i]) == Name(b[i]);
    }
  }

  /** The fast-track reasoning quotes the damage in `{:,}` form: a minus sign
      for a negative damage, then a numeral grouped in threes by commas that
      reads back as the damage's magnitude. */
  lemma FastTrackQuotesAmount(c: ClaimFields, missing: seq<Field>)
    requires DetermineRoute(c, missing).route == FastTrack
    ensures c.estimatedDamage.Some? && c.estimatedDamage.value < FastTrackLimit
    ensures var v := c.estimatedDamage.value;
      exists q :: (GroupedShape(q) && NumeralChars(q)
        && DetermineRoute(c, missing).reasoning == DamagePrefix + (if v < 0 then "-" else "") + q + DamageSuffix
        && ParseGrouped(q) == (if v < 0 then -v else v))
  {
    var v := c.estimatedDamage.value;
    var q := FormatThousands(if v < 0 then -v else v);
    FormatIntReadsBack(v);
    ConcatAssoc(DamagePrefix, if v < 0 then "-" else "", q);
  }
}

=== FILE: schema.dfy ===
/** The fixed seven-field claim schema that extraction fills and routing reads. */
module Schema {
  import opened Options

  /** The mandatory fields, one constructor per key of the extracted-fields mapping. */
  datatype Field =
    | PolicyNumber
    | PolicyholderName
    | IncidentDate
    | IncidentLocation
    | Description
    | EstimatedDamage
    | ClaimType

  /** The key under which the field appears in the extracted-fields mapping. */
  function Name(f: Field): string {
    match f
    case PolicyNumber => "policyNumber"
    case PolicyholderName => "policyholderName"
    case IncidentDate => "incidentDate"
    case IncidentLocation => "incidentLocation"
    case Description => "description"
    case EstimatedDamage => "estimatedDamage"
    case ClaimType => "claimType"
  }

  /** `MANDATORY_FIELDS`, in its declared order. */
  const MandatoryFields: seq<Field> :=
    [PolicyNumber, PolicyholderName, IncidentDate, IncidentLocation, Description, EstimatedDamage, ClaimType]

  /** The position of a field in `MandatoryFields`. */
  function Index(f: Field): (i: nat)
    ensures i < |MandatoryFields| && MandatoryFields[i] == f
  {
    match f
    case PolicyNumber => 0
    case PolicyholderName => 1
    case IncidentDate => 2
    case IncidentLocation => 3
    case Description => 4
    case EstimatedDamage => 5
    case ClaimType => 6
  }

  /** The schema names every field exactly once. */
  lemma MandatoryFieldsDistinct()
    ensures forall i, j :: 0 <= i < j < |MandatoryFields| ==> MandatoryFields[i] != MandatoryFields[j]
    ensures forall i :: 0 <= i < |MandatoryFields| ==> Index(MandatoryFields[i]) == i
  {
  }

  /** The extracted fields: one nullable value per mandatory key. The damage is
      an integer; the claim type is kept as the string the extractor produced. */
  datatype ClaimFields = ClaimFields(
    policyNumber: Option<string>,
    policyholderName: Option<string>,
    incidentDate: Option<string>,
    incidentLocation: Option<string>,
    description: Option<string>,
    estimatedDamage: Option<int>,
    claimType: Option<string>)

  /** Python's truthiness of a nullable string: present and non-empty. */
  predicate StringPresent(v: Option<string>) {
    v.Some? && v.value != ""
  }

  /** Python's truthiness of a nullable integer: present and non-zero. */
  predicate AmountPresent(v: Option<int>) {
    v.Some? && v.value != 0
  }

  /** `not fields.get(name)`: the field is absent or holds a falsy value. */
  predicate IsMissing(c: ClaimFields, f: Field) {
    match f
    case PolicyNumber => !StringPresent(c.policyNumber)
    case PolicyholderName => !StringPresent(c.policyholderName)
    case IncidentDate => !StringPresent(c.incidentDate)
    case IncidentLocation => !StringPresent(c.incidentLocation)
    case Description => !StringPresent(c.description)
    case EstimatedDamage => !AmountPresent(c.estimatedDamage)
    case ClaimType => !StringPresent(c.claimType)
  }

  /** Every mandatory field holds a truthy value. */
  ghost predicate Complete(c: ClaimFields) {
    forall f: Field :: !IsMissing(c, f)
  }
}

=== FILE: text.dfy ===
/** Character classes and string clean-up shared by the extractor and the router:
    Python's whitespace set, ASCII case mapping, `str.strip()` and the
    `re.sub(r'\s+', ' ', s)` whitespace collapse. */
module Text {

  /** Python's `str.isspace()`, which is also what `\s` matches in a `str` pattern. */
  predicate IsSpace(c: char) {
    || ('\t' <= c <= '\r')
    || ('\U{1C}' <= c <= '\U{1F}')
    || c == ' '
    || c == '\U{85}'
    || c == '\U{A0}'
    || c == '\U{1680}'
    || ('\U{2000}' <= c <= '\U{200A}')
    || c == '\U{2028}'
    || c == '\U{2029}'
    || c == '\U{202F}'
    || c == '\U{205F}'
    || c == '\U{3000}'
  }

  predicate IsUpperAscii(c: char) { 'A' <= c <= 'Z' }

  predicate IsLowerAscii(c: char) { 'a' <= c <= 'z' }

  predicate IsAsciiLetter(c: char) { IsUpperAscii(c) || IsLowerAscii(c) }

  predicate IsDigit(c: char) { '0' <= c <= '9' }

  /** `\w` restricted to ASCII: letters, digits and the underscore. */
  predicate IsWordChar(c: char) { IsAsciiLetter(c) || IsDigit(c) || c == '_' }

  function ToLower(c: char): (r: char)
    ensures !IsUpperAscii(r)
    ensures IsUpperAscii(c) || r == c
  {
    if IsUpperAscii(c) then (c as int + 32) as char else c
  }

  function ToUpper(c: char): (r: char)
    ensures !IsLowerAscii(r)
    ensures IsLowerAscii(c) || r == c
  {
    if IsLowerAscii(c) then (c as int - 32) as char else c
  }

  /** `s.lower()`, character by character. */
  function Lower(s: string): (r: string)
    ensures |r| == |s|
    ensures forall i :: 0 <= i < |s| ==> r[i] == ToLower(s[i])
  {
    seq(|s|, i requires 0 <= i < |s| => ToLower(s[i]))
  }

  /** `s.upper()`, character by character. */
  function Upper(s: string): (r: string)
    ensures |r| == |s|
    ensures forall i :: 0 <= i < |s| ==> r[i] == ToUpper(s[i])
  {
    seq(|s|, i requires 0 <= i < |s| => ToUpper(s[i]))
  }

  /** Upper-casing forgets whatever case the text had before. */
  lemma UpperOfLower(s: string)
    ensures Upper(Lower(s)) == Upper(s)
  {
  }

  /** Case-insensitive character comparison, as `re.IGNORECASE` does it on ASCII. */
  predicate FoldEq(a: char, b: char) { ToLower(a) == ToLower(b) }

  /** `s[:n]` */
  function Take(s: string, n: nat): (r: string)
    ensures |r| == if |s| <= n then |s| else n
    ensures r <= s
  {
    if |s| <= n then s else s[..n]
  }

  /** The middle part of a concatenation is where it was put. */
  lemma MiddleOfConcat(a: string, b: string, c: string, d: string)
    ensures (a + b + c + d)[|a|..|a| + |b|] == b
  {
    assert (a + b + c + d)[|a|..|a| + |b|] == (a + b)[|a|..];
  }

  /** `w` occurs in `s` starting at index `i`. */
  predicate OccursAt(s: string, w: string, i: nat) {
    i + |w| <= |s| && s[i..i + |w|] == w
  }

  /** Python's `w in s` for strings. */
  predicate Contains(s: string, w: string) {
    exists i | 0 <= i <= |s| :: OccursAt(s, w, i)
  }

  /** The characters of `s` that are not whitespace, in order. */
  function NonSpace(s: string): string {
    if |s| == 0 then []
    else (if IsSpace(s[0]) then [] else [s[0]]) + NonSpace(s[1..])
  }

  lemma {:induction false} NonSpaceAppend(a: string, b: string)
    ensures NonSpace(a + b) == NonSpace(a) + NonSpace(b)
    decreases |a|
  {
    if |a| == 0 {
      assert a + b == b;
    } else {
      assert (a + b)[1..] == a[1..] + b;
      NonSpaceAppend(a[1..], b);
    }
  }

  /** Every whitespace character is a plain space with no whitespace after it:
      the shape `re.sub(r'\s+', ' ', s)` leaves behind. */
  predicate SingleSpaced(s: string) {
    |s| == 0 ||
    ((IsSpace(s[0]) ==> s[0] == ' ' && (|s| > 1 ==> !IsSpace(s[1]))) && SingleSpaced(s[1..]))
  }

  /** Neither end is whitespace (vacuous for the empty string). */
  predicate Trimmed(s: string) {
    |s| > 0 ==> !IsSpace(s[0]) && !IsSpace(s[|s| - 1])
  }

  /** What `strip()` followed by the whitespace collapse produces. */
  predicate Clean(s: string) {
    SingleSpaced(s) && Trimmed(s)
  }

  /** `s.lstrip()`: the suffix left after dropping leading whitespace. */
  function TrimStart(s: string): (r: string)
    ensures |r| <= |s| && r == s[|s| - |r|..]
    ensures forall i :: 0 <= i < |s| - |r| ==> IsSpace(s[i])
    ensures |r| > 0 ==> !IsSpace(r[0])
    ensures NonSpace(r) == NonSpace(s)
  {
    if |s| > 0 && IsSpace(s[0]) then
      var r := TrimStart(s[1..]);
      assert s[1..][|s| - 1 - |r|..] == s[|s| - |r|..];
      assert NonSpace(s) == NonSpace(s[1..]);
      r
    else s
  }

  /** `s.rstrip()`: the prefix left after dropping trailing whitespace. */
  function TrimEnd(s: string): (r: string)
    ensures |r| <= |s| && r == s[..|r|]
    ensures forall i :: |r| <= i < |s| ==> IsSpace(s[i])
    ensures |r| > 0 ==> !IsSpace(r[|r| - 1])
    ensures NonSpace(r) == NonSpace(s)
  {
    if |s| > 0 && IsSpace(s[|s| - 1]) then
      var r := TrimEnd(s[..|s| - 1]);
      assert s == s[..|s| - 1] + [s[|s| - 1]];
      NonSpaceAppend(s[..|s| - 1], [s[|s| - 1]]);
      r
    else s
  }

  /** `s.strip()` */
  function Strip(s: string): (r: string)
    ensures Trimmed(r)
    ensures NonSpace(r) == NonSpace(s)
    ensures |r| == 0 <==> forall i :: 0 <= i < |s| ==> IsSpace(s[i])
    ensures Contains(s, r)
  {
    var a := TrimStart(s);
    var r := TrimEnd(a);
    var k := |s| - |a|;
    assert a == s[k..];
    assert r == a[..|r|] == s[k..k + |r|];
    assert OccursAt(s, r, k);
    r
  }

  /** `re.sub(r'\s+', ' ', s)`: every maximal run of whitespace becomes one space. */
  function Collapse(s: string): (r: string)
    ensures |r| <= |s|
    ensures |r| == 0 <==> |s| == 0
    ensures |r| > 0 ==> (IsSpace(r[0]) <==> IsSpace(s[0]))
    ensures |r| > 0 ==> (IsSpace(r[|r| - 1]) <==> IsSpace(s[|s| - 1]))
    ensures SingleSpaced(r)
    ensures NonSpace(r) == NonSpace(s)
    decreases |s|
  {
    if |s| == 0 then []
    else if IsSpace(s[0]) then
      var rest := TrimStart(s);
      var r := [' '] + Collapse(rest);
      assert NonSpace(r) == NonSpace(Collapse(rest)) by {
        assert r[1..] == Collapse(rest);
      }
      r
    else
      var r := [s[0]] + Collapse(s[1..]);
      assert r[1..] == Collapse(s[1..]);
      r
  }

  /** A string already in collapsed shape is left alone by the collapse. */
  lemma {:induction false} CollapseSingleSpaced(s: string)
    requires SingleSpaced(s)
    ensures Collapse(s) == s
    decreases |s|
  {
    if |s| > 0 {
      var t := s[1..];
      CollapseSingleSpaced(t);
      if IsSpace(s[0]) {
        assert TrimStart(s) == t by {
          assert TrimStart(s) == TrimStart(t);
          assert |t| == 0 || !IsSpace(t[0]);
        }
        assert Collapse(s) == [' '] + t;
      } else {
        assert Collapse(s) == [s[0]] + t;
      }
      assert s == [s[0]] + t;
    }
  }

  /** Leading blanks in front of a part that starts with a non-blank are what `lstrip` drops. */
  lemma {:induction false} TrimStartBlanks(w: string, y: string)
    requires forall i :: 0 <= i < |w| ==> IsSpace(w[i])
    requires y == [] || !IsSpace(y[0])
    ensures TrimStart(w + y) == y
    decreases |w|
  {
    if |w| == 0 {
      assert w + y == y;
    } else {
      assert (w + y)[1..] == w[1..] + y;
      TrimStartBlanks(w[1..], y);
    }
  }

  /** `lstrip` of a text that ends with a non-blank stops inside it, leaving what follows alone. */
  lemma {:induction false} TrimStartKeepsTail(x: string, z: string)
    requires |x| > 0 && !IsSpace(x[|x| - 1])
    ensures TrimStart(x + z) == TrimStart(x) + z
    decreases |x|
  {
    if IsSpace(x[0]) {
      assert (x + z)[1..] == x[1..] + z;
      TrimStartKeepsTail(x[1..], z);
    }
  }

  /** The collapse replaces a whitespace run between two parts by exactly one
      space and treats the parts on either side on their own. */
  lemma {:induction false} CollapseBlankRun(x: string, w: string, y: string)
    requires x == [] || !IsSpace(x[|x| - 1])
    requires |w| > 0 && forall i :: 0 <= i < |w| ==> IsSpace(w[i])
    requires y == [] || !IsSpace(y[0])
    ensures Collapse(x + w + y) == Collapse(x) + " " + Collapse(y)
    decreases |x|, 1
  {
    if |x| == 0 {
      CollapseBlankRunAtStart(x, w, y);
    } else if !IsSpace(x[0]) {
      CollapseBlankRunAfterWord(x, w, y);
    } else {
      CollapseBlankRunAfterBlank(x, w, y);
    }
  }

  /** The base case of `CollapseBlankRun`: a text opening with the run. */
  lemma CollapseBlankRunAtStart(x: string, w: string, y: string)
    requires x == []
    requires |w| > 0 && forall i :: 0 <= i < |w| ==> IsSpace(w[i])
    requires y == [] || !IsSpace(y[0])
    ensures Collapse(x + w + y) == Collapse(x) + " " + Collapse(y)
  {
    var s, c := w + y, Collapse(y);
    assert x + w + y == s;
    TrimStartBlanks(w, y);
    CollapseBlankFirst(s);
    assert Collapse(s) == [' '] + c;
    assert Collapse(x) == [];
    SpaceJoinEmpty(Collapse(x), c);
  }

  lemma SpaceJoinEmpty(a: string, b: string)
    requires a == []
    ensures a + " " + b == [' '] + b
  {
  }

  /** The inductive step of `CollapseBlankRun` when the text opens with a non-blank. */
  lemma {:induction false} CollapseBlankRunAfterWord(x: string, w: string, y: string)
    requires |x| > 0 && !IsSpace(x[0]) && !IsSpace(x[|x| - 1])
    requires |w| > 0 && forall i :: 0 <= i < |w| ==> IsSpace(w[i])
    requires y == [] || !IsSpace(y[0])
    ensures Collapse(x + w + y) == Collapse(x) + " " + Collapse(y)
    decreases |x|, 0
  {
    var s := x + w + y;
    assert s[1..] == x[1..] + w + y;
    CollapseBlankRun(x[1..], w, y);
    CollapseWordFirst(s);
    CollapseWordFirst(x);
    SpaceJoinCons(x[0], Collapse(x[1..]), Collapse(y));
  }

  /** The inductive step of `CollapseBlankRun` when the text opens with a blank. */
  lemma {:induction false} CollapseBlankRunAfterBlank(x: string, w: string, y: string)
    requires |x| > 0 && IsSpace(x[0]) && !IsSpace(x[|x| - 1])
    requires |w| > 0 && forall i :: 0 <= i < |w| ==> IsSpace(w[i])
    requires y == [] || !IsSpace(y[0])
    ensures Collapse(x + w + y) == Collapse(x) + " " + Collapse(y)
    decreases |x|, 0
  {
    var s := x + w + y;
    var x' := TrimStart(x);
    assert |x'| > 0 && x'[|x'| - 1] == x[|x| - 1];
    ConcatAssoc(x, w, y);
    ConcatAssoc(x', w, y);
    TrimStartKeepsTail(x, w + y);
    assert TrimStart(s) == x' + w + y;
    CollapseBlankRun(x', w, y);
    var A, C := Collapse(x'), Collapse(y);
    CollapseBlankFirst(s);
    assert Collapse(s) == [' '] + (A + " " + C);
    CollapseBlankFirst(x);
    assert Collapse(x) == [' '] + A;
    SpaceJoinCons(' ', A, C);
  }

  lemma ConcatAssoc(a: string, b: string, c: string)
    ensures a + (b + c) == a + b + c
  {
  }

  lemma SpaceJoinCons(c: char, a: string, b: string)
    ensures [c] + (a + " " + b) == ([c] + a) + " " + b
  {
  }

  /** A leading whitespace run collapses to one space. */
  lemma CollapseBlankFirst(s: string)
    requires |s| > 0 && IsSpace(s[0])
    ensures Collapse(s) == [' '] + Collapse(TrimStart(s))
  {
  }

  /** A leading non-blank is kept as it is. */
  lemma CollapseWordFirst(s: string)
    requires |s| > 0 && !IsSpace(s[0])
    ensures Collapse(s) == [s[0]] + Collapse(s[1..])
  {
  }

  /** A string without whitespace is single-spaced. */
  lemma {:induction false} SpaceFreeSingleSpaced(s: string)
    requires forall i :: 0 <= i < |s| ==> !IsSpace(s[i])
    ensures SingleSpaced(s)
    decreases |s|
  {
    if |s| > 0 {
      SpaceFreeSingleSpaced(s[1..]);
    }
  }

  /** A prefix of a single-spaced string is single-spaced. */
  lemma {:induction false} PrefixSingleSpaced(s: string, n: nat)
    requires SingleSpaced(s)
    ensures SingleSpaced(Take(s, n))
    decreases |s|
  {
    if |s| > n && n > 0 {
      PrefixSingleSpaced(s[1..], n - 1);
      assert Take(s, n)[1..] == Take(s[1..], n - 1);
    }
  }

  /** `", ".join(xs)` */
  function Join(xs: seq<string>, sep: string): string {
    if |xs| == 0 then ""
    else if |xs| == 1 then xs[0]
    else xs[0] + sep + Join(xs[1..], sep)
  }

  predicate NoComma(s: string) {
    forall i :: 0 <= i < |s| ==> s[i] != ','
  }

  /** The length of the longest prefix of `s` without a comma. */
  function CommaFreeLength(s: string): (n: nat)
    ensures n <= |s|
  {
    if |s| == 0 || s[0] == ',' then 0 else 1 + CommaFreeLength(s[1..])
  }

  lemma {:induction false} CommaFreeLengthAppend(a: string, t: string)
    requires NoComma(a)
    ensures CommaFreeLength(a + t) == |a| + CommaFreeLength(t)
    decreases |a|
  {
    if |a| == 0 {
      assert a + t == t;
    } else {
      assert (a + t)[1..] == a[1..] + t;
      CommaFreeLengthAppend(a[1..], t);
    }
  }

  /** In a ", "-joined list of comma-free words the first comma ends the first
      word, and there is one exactly when there is a second word. */
  lemma FirstWordOfJoin(xs: seq<string>)
    requires |xs| > 0 && forall i :: 0 <= i < |xs| ==> NoComma(xs[i])
    ensures CommaFreeLength(Join(xs, ", ")) == |xs[0]|
    ensures |xs| > 1 <==> |xs[0]| < |Join(xs, ", ")|
    ensures Join(xs, ", ")[..|xs[0]|] == xs[0]
    ensures |xs| > 1 ==> Join(xs, ", ")[|xs[0]| + 2..] == Join(xs[1..], ", ")
  {
    if |xs| == 1 {
      CommaFreeLengthAppend(xs[0], "");
      assert xs[0] + "" == xs[0];
    } else {
      CommaFreeLengthAppend(xs[0], ", " + Join(xs[1..], ", "));
      assert xs[0] + ", " + Join(xs[1..], ", ") == xs[0] + (", " + Join(xs[1..], ", "));
    }
  }

  /** Joining non-empty, comma-free words with ", " loses nothing: the joined
      text determines the words. */
  lemma {:induction false} JoinCommaInjective(xs: seq<string>, ys: seq<string>)
    requires forall i :: 0 <= i < |xs| ==> xs[i] != "" && NoComma(xs[i])
    requires forall i :: 0 <= i < |ys| ==> ys[i] != "" && NoComma(ys[i])
    requires Join(xs, ", ") == Join(ys, ", ")
    ensures xs == ys
    decreases |xs|
  {
    var j := Join(xs, ", ");
    if |xs| > 0 && |ys| > 0 {
      FirstWordOfJoin(xs);
      FirstWordOfJoin(ys);
      if |xs| > 1 {
        JoinCommaInjective(xs[1..], ys[1..]);
        assert xs == [xs[0]] + xs[1..] && ys == [ys[0]] + ys[1..];
      }
    } else if |xs| > 0 {
      JoinNonEmpty(xs);
    } else if |ys| > 0 {
      JoinNonEmpty(ys);
    }
  }

  lemma JoinNonEmpty(xs: seq<string>)
    requires |xs| > 0 && xs[0] != ""
    ensures Join(xs, ", ") != ""
  {
  }
}
